=== FILE: README.md ===
# Wildberries box-tariff sync, modelled in Dafny

The system fetches the Wildberries "box tariffs" snapshot once an hour and reconciles it
into three Postgres tables:

- `wh_tariffs`: the delivery window per warehouse, partitioned by day;
- `warehouses`: nine numeric tariffs per warehouse, partitioned by day;
- `wh_location`: the geographic name per warehouse, not partitioned.

When the reconciliation reports a change, the system exports today's rows to a new Google
Sheets tab. A daily job exports unconditionally.

The model covers the three core files:

- `wbTariffs.service.ts`, the tariff service:
  - `coercion.dfy` models `toNumberOrNull`.
  - `http_client.dfy` models `fetchJson`: the `Headers` object it builds, and how a reply
    becomes a value or an error.
  - `payload.dfy` models `getTariffsBox`: the response schema, the `{response:{data}}`
    envelope and the request URL.
  - `reconcile.dfy` models `saveWarehouseList` and `fetchAndSaveTariffsBox`. The row lists,
    the three update-then-insert loops and the transaction are written as functions, as
    methods with loops, and as the `Store` class whose three tables the transaction
    replaces on commit.
- `wbTariffs.cron.ts`, the run coordinator, is modelled in `coordinator.dfy`:
  - the `SyncCoordinator` class holds the `isRunning` flag, whether the advisory lock is
    held, and the sequence of calls made to the collaborators;
  - `Boot` models start-up scheduling.
- `spreadsheets.service.ts`, the export, is modelled in `sheet_export.dfy`: the join query
  over the three tables, the header and data rows, the sheet title and its fallback, and
  `uploadData`.

`wrappers.dfy` holds `Option` and `Result`, and `json.dfy` holds a JSON value type.

Tables are maps from `warehouse_name` to a row. This follows the migration
`src/postgres/migrations/001_create_table_for_warehouse.js`, which makes `warehouse_name`
alone the primary key of all three tables. A day-partitioned row carries its `date`. The
sync date is a string `today`.

Three consequences of the code as written, which the model keeps:

- `warehousesInserted` also counts inserts into `wh_location`
  (`src/wbTraffic/wbTariffs.service.ts:179`), and `warehousesUpdated` sums the updates of
  all three tables (lines 149, 166 and 182). Empty tables and a snapshot of `n` distinct
  warehouses therefore give `Counts(n, 0, 2n)` (`FreshTablesScenario`).
- A blank string does not become null: `toNumberOrNull` trims it and hands `""` to
  `Number()` (lines 98-100), which JavaScript reads as 0, so it is stored as 0
  (`BlankBecomesNumberOfEmpty`). Null comes only from a null or undefined input (line 97)
  or from a `Number()` result that is not finite (line 101).
- A day-partitioned table holds at most one row per warehouse, not one per warehouse and
  day. The migration makes `warehouse_name` alone the primary key
  (`src/postgres/migrations/001_create_table_for_warehouse.js:7` and `:22`).

## Model

| member | source | states |
|---|---|---|
| Coercion.TrimStart | src/wbTraffic/wbTariffs.service.ts:98 | the result is a suffix of the input and does not start with white space |
| Coercion.TrimEnd | src/wbTraffic/wbTariffs.service.ts:98 | the result is a prefix of the input and does not end with white space |
| Coercion.StripSpaces | src/wbTraffic/wbTariffs.service.ts:99 | no white space remains, and the result is never longer than the input |
| Coercion.CommasToDots | src/wbTraffic/wbTariffs.service.ts:99 | same length; every comma becomes a dot and every other character is kept |
| Coercion.Trim | src/wbTraffic/wbTariffs.service.ts:98 | the trimmed string is a contiguous piece of the input, so nothing inside it is removed, and neither of its ends is white space |
| Coercion.Normalize | src/wbTraffic/wbTariffs.service.ts:98-99 | the string given to `Number()` contains no white space and no comma |
| Coercion.ToNumberOrNull | src/wbTraffic/wbTariffs.service.ts:96-102 | null or undefined gives null; otherwise the result is a number exactly when `Number()` of the cleaned string is finite, and then it is that number |
| Coercion.StripSpacesIgnoresTrim | src/wbTraffic/wbTariffs.service.ts:98-99 | trimming before deleting white space makes no difference |
| Coercion.SameCleanedSameNumber | src/wbTraffic/wbTariffs.service.ts:96-102 | two inputs with the same cleaned form coerce to the same value |
| Coercion.SpaceIsIgnored | src/wbTraffic/wbTariffs.service.ts:99 | a white-space character anywhere in the input does not change the result |
| Coercion.CommaReadAsDot | src/wbTraffic/wbTariffs.service.ts:99 | a comma is read exactly as a decimal point |
| Coercion.GroupedDecimal | src/wbTraffic/wbTariffs.service.ts:98-101 | a space-grouped, comma-decimal value coerces like its plain dotted form |
| Coercion.BlankBecomesNumberOfEmpty | src/wbTraffic/wbTariffs.service.ts:98-101 | an all-white-space value reaches `Number()` as the empty string, so it becomes 0 rather than null |
| Json.Truthy | src/wbTraffic/wbTariffs.service.ts:83 | JavaScript truthiness of a JSON value: null, false, 0 and "" are falsy; this predicate is used by `Payload.Unwrap`, whose contract states the consequence |
| HttpClient.SetHeader | src/wbTraffic/wbTariffs.service.ts:46 | the header is set; every header of the same name in any case is replaced; all others are kept |
| HttpClient.MergedHeaders | src/wbTraffic/wbTariffs.service.ts:42-48 | the caller's headers are kept; a bearer `Authorization` is added exactly when a token is configured and none is present; otherwise nothing changes |
| HttpClient.MergeIdempotent | src/wbTraffic/wbTariffs.service.ts:42-48 | merging the token a second time changes nothing |
| HttpClient.Headers.Set | src/wbTraffic/wbTariffs.service.ts:46 | the object's entries become those of `SetHeader` |
| HttpClient.BuildRequestHeaders | src/wbTraffic/wbTariffs.service.ts:42-48 | a fresh `Headers` object holding the merged headers |
| HttpClient.FetchJson | src/wbTraffic/wbTariffs.service.ts:33-73 | success exactly on a 2xx reply, with the JSON body or null when the body is not JSON; a non-2xx status, an abort after the timeout (8 s requested or the 10 s default) and a transport error each give their own error |
| Payload.IsWarehouseTariff | src/wbTraffic/wbTariffs.service.ts:9-21 | the element schema: an object whose eleven listed fields are strings, other keys allowed; `MissingFieldRejects` states its consequence for a whole document |
| Payload.IsWareHouseList | src/wbTraffic/wbTariffs.service.ts:6-22 | the top-level schema: string `dtNextBox` and `dtTillMax`, and an array `warehouseList` of valid elements; `SafeParse` accepts exactly these documents |
| Payload.SafeParse | src/wbTraffic/wbTariffs.service.ts:6-22 | a snapshot is produced exactly when the document satisfies the schema; the dates are the document's strings, and element `i` is item `i` parsed |
| Payload.ParsedFieldsAgree | src/wbTraffic/wbTariffs.service.ts:9-21 | a parsed element holds, under every schema key, exactly the document's value |
| Payload.SafeParseKeepsValues | src/wbTraffic/wbTariffs.service.ts:6-22 | an accepted document's dates and every schema field of every element reach the snapshot unchanged; extra keys are ignored |
| Payload.MissingFieldRejects | src/wbTraffic/wbTariffs.service.ts:9-21 | one missing or non-string field in any element rejects the whole document |
| Payload.MissingDateRejects | src/wbTraffic/wbTariffs.service.ts:7-8 | a missing or non-string `dtNextBox` or `dtTillMax` rejects the document |
| Payload.WarehouseTariffRoundTrip | src/wbTraffic/wbTariffs.service.ts:9-21 | every element, encoded as JSON, satisfies the element schema and parses back to itself |
| Payload.RoundTrip | src/wbTraffic/wbTariffs.service.ts:6-22 | every snapshot, encoded as JSON, is accepted and parses back to itself |
| Payload.Unwrap | src/wbTraffic/wbTariffs.service.ts:83 | when `response` and `response.data` are present and truthy, the payload is `response.data`, whatever other members there are; otherwise it is the document itself |
| Payload.UnwrapWrapped | src/wbTraffic/wbTariffs.service.ts:81-83 | a truthy payload in the envelope is unwrapped to itself |
| Payload.UnwrapRaw | src/wbTraffic/wbTariffs.service.ts:81-83 | a document with no `response` member is its own payload |
| Payload.WrappedAcceptedAsRaw | src/wbTraffic/wbTariffs.service.ts:81-85 | a payload is validated alike whether it arrives raw or wrapped |
| Payload.GetTariffsBox | src/wbTraffic/wbTariffs.service.ts:75-94 | a fetch error propagates; otherwise the unwrapped payload either validates into the snapshot or fails with the request URL (carrying `?date=today`) and the raw document |
| Payload.WrappedReplyYieldsSnapshot | src/wbTraffic/wbTariffs.service.ts:75-93 | a 2xx reply carrying a snapshot, wrapped or raw, yields that snapshot |
| Reconcile.RowsTariffs | src/wbTraffic/wbTariffs.service.ts:105-109 | the `wh_tariffs` row list; its names and values are stated by `RowListsFollowSnapshot` |
| Reconcile.ConvertTariffs | src/wbTraffic/wbTariffs.service.ts:113-121 | the nine tariff strings of an element, each through `ToNumberOrNull` |
| Reconcile.RowsWarehouses | src/wbTraffic/wbTariffs.service.ts:111-122 | the `warehouses` row list; its names and values are stated by `RowListsFollowSnapshot` |
| Reconcile.RowsLocation | src/wbTraffic/wbTariffs.service.ts:124-127 | the `wh_location` row list; its names and values are stated by `RowListsFollowSnapshot` |
| Reconcile.RowListsFollowSnapshot | src/wbTraffic/wbTariffs.service.ts:105-127 | the three row lists name the snapshot's warehouses in snapshot order and carry its window, its coerced tariffs and its geo name |
| Reconcile.UpsertDay | src/wbTraffic/wbTariffs.service.ts:137-150 | one row of a day-table loop; `UpsertDayOneRow` states its effect |
| Reconcile.UpsertDayOneRow | src/wbTraffic/wbTariffs.service.ts:137-150 | one row touches only its own name; it is an insert exactly when the name had no row; it is one write unless an earlier day's row is kept as it was (as written); any row it writes is dated today with the row's values |
| Reconcile.UpsertDayRows | src/wbTraffic/wbTariffs.service.ts:136-151 | the whole day-table loop, row by row in order; the `UpsertDayRows*` lemmas below state its result |
| Reconcile.UpsertDayRowsAt | src/wbTraffic/wbTariffs.service.ts:136-151 | after one day-table loop, an unnamed warehouse keeps its row; a named one with a row from another day keeps it (as written); any other named one has today's row with its last occurrence's values |
| Reconcile.UpsertDayRowsKeys | src/wbTraffic/wbTariffs.service.ts:136-168 | the loop adds a row for every name it saw and no other row |
| Reconcile.UpsertDayRowsTally | src/wbTraffic/wbTariffs.service.ts:142-150 | inserts equal the names that had no row at all; there is at most one write per row |
| Reconcile.StaleCount | src/wbTraffic/wbTariffs.service.ts:142-147 | the number of rows whose name keeps an earlier day's row: at most the number of rows, and none with the corrected loop |
| Reconcile.UpsertDayRowsWrites | src/wbTraffic/wbTariffs.service.ts:142-150 | updates plus inserts plus kept stale rows equals the number of rows, so the update count is exact |
| Reconcile.UpsertDayRowsAllCurrent | src/wbTraffic/wbTariffs.service.ts:137-149 | when every name already has a row dated today, every row counts as an update |
| Reconcile.UpsertDayRowsAllStale | src/wbTraffic/wbTariffs.service.ts:142-147 | as written, when every name has a row from another day, the loop changes and counts nothing |
| Reconcile.NextDaySkipsAll | src/wbTraffic/wbTariffs.service.ts:142-147 | as written, rows saved into an empty table on one day are all skipped on another day |
| Reconcile.UpsertDayRowsIdempotent | src/wbTraffic/wbTariffs.service.ts:136-168 | a second run with the same rows on the same day leaves the table as it is and inserts nothing |
| Reconcile.UpsertLocation | src/wbTraffic/wbTariffs.service.ts:171-183 | one row of the location loop: update by name, insert when there is none; `UpsertLocationRowsAt` and `UpsertLocationRowsTally` state the loop's result |
| Reconcile.UpsertLocationRows | src/wbTraffic/wbTariffs.service.ts:170-184 | the whole location loop, row by row in order |
| Reconcile.UpsertLocationRowsAt | src/wbTraffic/wbTariffs.service.ts:170-184 | every named warehouse ends with its last occurrence's `geo_name`; other rows are untouched |
| Reconcile.UpsertLocationRowsKeys | src/wbTraffic/wbTariffs.service.ts:170-184 | the location loop adds exactly the names it saw |
| Reconcile.UpsertLocationRowsTally | src/wbTraffic/wbTariffs.service.ts:175-183 | inserts equal the names that had no location; every other row counts as an update |
| Reconcile.UpsertLocationRowsIdempotent | src/wbTraffic/wbTariffs.service.ts:170-184 | a second run changes nothing and counts one update per row |
| Reconcile.Reconcile | src/wbTraffic/wbTariffs.service.ts:129-187 | the committed effect of the transaction: the three loops in order, and the counters as the code sums them; `ReconcileAt` and `ReconcileCounts` state its result |
| Reconcile.ReconcileAt | src/wbTraffic/wbTariffs.service.ts:129-187 | the row of every warehouse in all three tables after a committed save |
| Reconcile.PartitionIsolation | src/wbTraffic/wbTariffs.service.ts:136-168 | as written, a row dated another day is never modified, and a new row belongs to a snapshot warehouse and is dated today |
| Reconcile.ReconcileCounts | src/wbTraffic/wbTariffs.service.ts:129-187 | every counter exactly. `tariffsInserted` is the snapshot names that had no `wh_tariffs` row. `warehousesInserted` adds the names with no `warehouses` row and those with no `wh_location` row. `warehousesUpdated` is, per table, the snapshot size minus that table's inserts and minus the rows kept stale. For a snapshot of `n` elements, `tariffsInserted` ≤ n, `warehousesInserted` ≤ 2n, and the three together ≤ 3n |
| Reconcile.ReconcileIdempotent | src/wbTraffic/wbTariffs.service.ts:129-187 | saving the same snapshot twice on one day: the second save inserts nothing and leaves the tables as they are; with no stale rows, every write is an update |
| Reconcile.ReconcileDatesToday | src/wbTraffic/wbTariffs.service.ts:136-168 | when no snapshot name is kept on an earlier day's row, every snapshot name has a row dated today in `wh_tariffs` and in `warehouses` after the save |
| Reconcile.FreshTablesScenario | src/wbTraffic/wbTariffs.service.ts:129-187 | empty tables and `n` distinct warehouses give `Counts(n, 0, 2n)`, and each warehouse row is dated today with its coerced tariffs |
| Reconcile.FreshTablesCounts | src/wbTraffic/wbTariffs.service.ts:145-179 | empty tables and `n` distinct warehouses give `tariffsInserted = n`, no updates and `warehousesInserted = 2n` |
| Reconcile.ApplyDayRows | src/wbTraffic/wbTariffs.service.ts:136-168 | the loop fails exactly when a rejected statement is reached, and otherwise leaves the table and counters of the day-table fold |
| Reconcile.ApplyLocationRows | src/wbTraffic/wbTariffs.service.ts:170-184 | the location loop fails exactly when a rejected statement is reached, and otherwise leaves the table and counters of the location fold |
| Reconcile.RunTransaction | src/wbTraffic/wbTariffs.service.ts:135-187 | the transaction fails exactly when a rejected statement is reached; otherwise its tables and counters are those of `Reconcile` |
| Reconcile.Store.constructor | src/postgres/migrations/001_create_table_for_warehouse.js:5-32 | the store holds the given tables |
| Reconcile.Store.SaveWarehouseList | src/wbTraffic/wbTariffs.service.ts:104-188 | on commit the stored tables and the returned counters are those of `Reconcile` on the old tables; on a rejected statement the tables are unchanged and the error propagates |
| Reconcile.Store.FetchAndSaveTariffsBox | src/wbTraffic/wbTariffs.service.ts:191-194 | a fetch or validation failure propagates and leaves the tables untouched; otherwise it behaves as `SaveWarehouseList` on the snapshot |
| Coordinator.RunCalls | src/wbTraffic/wbTariffs.cron.ts:46-76 | a run always asks for the lock first; without the lock that is all it does; with the lock it syncs next and unlocks last |
| Coordinator.RunCallCounts | src/wbTraffic/wbTariffs.cron.ts:46-76 | a run asks for the lock once; it syncs and unlocks once exactly when it got the lock; it uploads once exactly when it got the lock and the sync reported a change |
| Coordinator.RunOutcome | src/wbTraffic/wbTariffs.cron.ts:46-76 | how a run ends, as an if-and-only-if per outcome: lock refused, sync failed, no change, upload attempted |
| Coordinator.ScheduleCallCounts | src/wbTraffic/wbTariffs.cron.ts:82-84 | over any series of runs, uploads equal the runs that got the lock and saw a change; each granted lock is released once; every run asks for the lock once |
| Coordinator.Boot | src/wbTraffic/wbTariffs.cron.ts:79-99 | scheduling is enabled unless `CRON_ENABLED` is set to something other than "true"; then one start-up run and the sync and daily jobs with their default expressions; otherwise nothing is scheduled; the defaults are those of lines 7-9 |
| Coordinator.SyncCoordinator.constructor | src/wbTraffic/wbTariffs.cron.ts:32 | no run in progress, no lock held, no calls made |
| Coordinator.SyncCoordinator.TryAcquireLock | src/wbTraffic/wbTariffs.cron.ts:13-22 | true exactly when the lock was granted; a query error counts as not granted |
| Coordinator.SyncCoordinator.ReleaseLock | src/wbTraffic/wbTariffs.cron.ts:24-30 | the lock is released unless the unlock query fails, and the failure is swallowed |
| Coordinator.SyncCoordinator.RunTask | src/wbTraffic/wbTariffs.cron.ts:34-77 | a run that finds another in progress does nothing; otherwise it makes the calls and reaches the outcome of `RunCalls` and `RunOutcome`, lowers the flag, and holds the lock afterwards only if it got it and could not release it |
| Coordinator.SyncCoordinator.DailyUpload | src/wbTraffic/wbTariffs.cron.ts:87-96 | uploads once, ignoring the flag and the lock; a failure is swallowed |
| Coordinator.SyncCoordinator.RunScheduled | src/wbTraffic/wbTariffs.cron.ts:82-84 | runs triggered one after another make exactly the calls of `ScheduleCalls` and end as `Outcomes` says |
| SheetExport.Exported | src/google/spreadsheets.service.ts:29-31 | a warehouse is in the join when its `warehouses` row is dated today and it has a `wh_location` and a `wh_tariffs` row; `ExportQuery` returns exactly these |
| SheetExport.JoinRow | src/google/spreadsheets.service.ts:14-30 | the joined row of a warehouse: its name, `geo_name` from `wh_location`, `dt_next_box` and `dt_till_max` from `wh_tariffs`, and each of the nine tariff columns of `warehouses` as the text stored for that number (`String(number)`), null staying null |
| SheetExport.ExportQuery | src/google/spreadsheets.service.ts:14-31 | the query returns one row per warehouse whose `warehouses` row is dated today and that has a location and a tariff-window row; every returned row is in the join, and its columns are those of `JoinRow` for its name |
| SheetExport.DataRow | src/google/spreadsheets.service.ts:55-69 | one data row, as wide as the header; `DataRowFollowsHeader` states its cells |
| SheetExport.DataRowFollowsHeader | src/google/spreadsheets.service.ts:39-69 | each data row has one cell per header column; cell `j` renders the column header `j` names, with `""` for a missing name or geo name and `"-"` for a missing value |
| SheetExport.DataRows | src/google/spreadsheets.service.ts:55-69 | row `i` is the data row of query row `i`, in the query's order, and as wide as the header |
| SheetExport.Slice | src/google/spreadsheets.service.ts:99-100 | JavaScript `slice`: `s[start..end]` when both bounds are inside the string, the rest of the string from `start` when `end` is past its end, and empty when `start` is at or past `end` or the end of the string |
| SheetExport.PrimaryTitle | src/google/spreadsheets.service.ts:72-74 | the title is "WB Tariffs " and the date when that fits in 90 characters, and its first 90 characters otherwise |
| SheetExport.FallbackTitle | src/google/spreadsheets.service.ts:100 | the retry title is the first 80 characters of the title (all of it when shorter), a dash and the suffix |
| SheetExport.ShortDateFallbackTitle | src/google/spreadsheets.service.ts:72-100 | for a date of at most 69 characters, such as a `YYYY-MM-DD` date, the retry title is "WB Tariffs ", the whole date, a dash and the suffix |
| SheetExport.RandomSuffix | src/google/spreadsheets.service.ts:99 | the random suffix has at most five characters |
| SheetExport.FallbackTitleBound | src/google/spreadsheets.service.ts:99-100 | the retry title is at most 86 characters and starts with the first 80 of the primary title |
| SheetExport.UploadData | src/google/spreadsheets.service.ts:33-120 | empty data appends nothing; otherwise it fails exactly when authorisation, both sheet creations or the write fail; on success it writes the header and the data rows to the primary or fallback title and reports `rows + 1` appended |
| SheetExport.StaleDayExportsNothing | src/wbTraffic/wbTariffs.service.ts:153-168 | as written, a second day's save keeps the first day's tables and still reports `warehousesUpdated = n`, yet exports no warehouse for the second day |
| SheetExport.RefreshedDayExportsSnapshot | src/google/spreadsheets.service.ts:29-31 | with stale rows refreshed, every snapshot warehouse is exported today, with its last occurrence's geo name and tariffs |

## Left out

- The network is not modelled. `retry` with exponential back-off, the abort timer and `fetch` itself are replaced by the reply the retried request ends with (`HttpReply`), which is an input.
- JavaScript's `Number()` and `String(number)` are the parameters `number` and `show`. Only the characters `toNumberOrNull` changes before `Number()` are modelled.
- The text of error messages is not modelled: Zod's formatted issues, `JSON.stringify` of the raw document, HTTP status text and the response body. An error carries only its kind, the request URL and the raw document.
- SQL and knex are not modelled: query building, the `date::date` cast of the timestamp and connection pooling. A row's `date` is the sync day.
- Each statement inside the transaction is assumed to succeed unless `WriteFault` names it. The database's own isolation against concurrent writers is not modelled.
- The `pg_try_advisory_lock` call is reduced to its reply. Session re-entrancy of the lock and the `hashtext` key are not modelled.
- The wall clock is not modelled. The date `getTariffsBox` sends, the date `saveWarehouseList` partitions by and the date `uploadData` queries are one `today`, so a run across midnight is not modelled.
- Asynchronous interleaving is not modelled. `RunScheduled` covers runs that start after the previous one has finished; a run that starts while another awaits is `RunTask` with `isRunning` set.
- `node-cron` expression parsing and timing are not modelled. `Boot` returns the expressions the jobs are registered with.
- Logging (`console.*`) and durations are not modelled.
- Google authentication and the Sheets API are not modelled. Each call's success is an input (`SheetsReplies`), and the API's response body is dropped from the report.
- `Math.random().toString(36)` is an input string.
- `uploadData`'s `!Array.isArray(data)` branch cannot occur for a knex result, and a failing query is not modelled. `data` is the query result.
- SheetExport.ExportQuery: the order in which the database returns the join is an input (`order`), constrained only to list each exported warehouse once.
- HttpClient.MergedHeaders: header names are compared case-insensitively as ASCII. The `Headers` class's lower-casing of stored names and its joining of repeated values are not modelled.
- The `warehouses` columns are text in the migration but receive numbers. The stored text is `show` of the number (`SheetExport.Stored`).

## Findings

| source | as written | input that shows it | evidently intended | confidence | as-written member | corrected member |
|---|---|---|---|---|---|---|
| src/wbTraffic/wbTariffs.service.ts:142-147 | When the day-scoped update matches no row but the warehouse has a row from an earlier day, nothing is written. Once a warehouse has been seen, its `wh_tariffs` and `warehouses` rows are never dated later than the first day. | Save any non-empty snapshot into empty tables on day 1, then the same snapshot on day 2. On day 2 the tables are unchanged, yet the counters are `(0, n, 0)` from the `wh_location` updates, so an export is triggered, and it exports no rows because no `warehouses` row is dated day 2. | The row from an earlier day is rewritten with today's date and values, so that today's export lists every snapshot warehouse. With `warehouse_name` as the primary key, a rewrite is the only way to get a row for today. | not executed | SheetExport.StaleDayExportsNothing | SheetExport.RefreshedDayExportsSnapshot |

`SkipStale` is the loop as written and `RefreshStale` the corrected loop. `ApplyDayRows`,
`RunTransaction` and `Store.SaveWarehouseList` take the policy as a parameter, and every
property of the fold that does not depend on it is proved for both policies.

=== FILE: coercion.dfy ===
/** `toNumberOrNull` of the tariff service: the string clean-up done before JavaScript's
    `Number()`, and the finiteness filter after it. `Number()` itself is a parameter. */
module Coercion {
  import opened Wrappers

  /** What JavaScript's `Number()` can yield. */
  datatype JsNumber = Finite(value: real) | NaN | PositiveInfinity | NegativeInfinity

  /** The characters matched by the `\s` class of JavaScript regular expressions, which are
      also the characters `String.prototype.trim` removes (white space and line terminators). */
  predicate IsJsSpace(c: char) {
    c == '\t' || c == '\n' || c == '\U{B}' || c == '\U{C}' || c == '\r' || c == ' '
    || c == '\U{A0}' || c == '\U{1680}' || ('\U{2000}' <= c <= '\U{200A}')
    || c == '\U{2028}' || c == '\U{2029}' || c == '\U{202F}' || c == '\U{205F}'
    || c == '\U{3000}' || c == '\U{FEFF}'
  }

  function TrimStart(s: string): (r: string)
    ensures r == [] || !IsJsSpace(r[0])
    ensures |r| <= |s| && r == s[|s| - |r|..]
  {
    if s != [] && IsJsSpace(s[0]) then TrimStart(s[1..]) else s
  }

  function TrimEnd(s: string): (r: string)
    ensures r == [] || !IsJsSpace(r[|r| - 1])
    ensures |r| <= |s| && r == s[..|r|]
  {
    if s != [] && IsJsSpace(s[|s| - 1]) then TrimEnd(s[..|s| - 1]) else s
  }

  /** `String.prototype.trim`: neither end of the result is white space. */
  function Trim(s: string): (r: string)
    ensures r == [] || (!IsJsSpace(r[0]) && !IsJsSpace(r[|r| - 1]))
    ensures |r| <= |s|
    ensures exists i, j :: 0 <= i <= j <= |s| && r == s[i..j]
  {
    var t := TrimStart(s);
    var r := TrimEnd(t);
    assert r == s[|s| - |t|..|s| - |t| + |r|];
    r
  }

  /** `s.replace(/\s+/g, "")`: every run of white space is deleted, which is the same as
      deleting every white-space character. */
  function StripSpaces(s: string): (r: string)
    ensures forall i :: 0 <= i < |r| ==> !IsJsSpace(r[i])
    ensures |r| <= |s|
  {
    if s == [] then []
    else if IsJsSpace(s[0]) then StripSpaces(s[1..])
    else [s[0]] + StripSpaces(s[1..])
  }

  /** `s.replace(/,/g, ".")`. */
  function CommasToDots(s: string): (r: string)
    ensures |r| == |s|
    ensures forall i :: 0 <= i < |s| ==> r[i] == (if s[i] == ',' then '.' else s[i])
  {
    if s == [] then [] else [if s[0] == ',' then '.' else s[0]] + CommasToDots(s[1..])
  }

  /** The string handed to `Number()`: trimmed, white space removed, commas made dots. */
  function Normalize(raw: string): (r: string)
    ensures forall i :: 0 <= i < |r| ==> !IsJsSpace(r[i]) && r[i] != ','
  {
    var stripped := StripSpaces(Trim(raw));
    DotsKeepSpaceFree(stripped);
    CommasToDots(stripped)
  }

  /** Making commas dots adds no white space and leaves no comma. */
  lemma DotsKeepSpaceFree(s: string)
    requires forall i :: 0 <= i < |s| ==> !IsJsSpace(s[i])
    ensures forall i :: 0 <= i < |s| ==> !IsJsSpace(CommasToDots(s)[i]) && CommasToDots(s)[i] != ','
  {
    var r := CommasToDots(s);
    forall i | 0 <= i < |s|
      ensures !IsJsSpace(r[i]) && r[i] != ','
    {
      if s[i] == ',' {
        assert r[i] == '.';
      } else {
        assert r[i] == s[i];
      }
    }
  }

  /** `toNumberOrNull(value)`. `None` on input stands for null or undefined, `None` on output
      for null; `number` is JavaScript's `Number()`. It has no error result: it never throws. */
  function ToNumberOrNull(value: Option<string>, number: string -> JsNumber): (r: Option<real>)
    ensures value.None? ==> r.None?
    ensures value.Some? ==> (r.Some? <==> number(CommasToDots(StripSpaces(value.value))).Finite?)
    ensures r.Some? ==> number(CommasToDots(StripSpaces(value.value))) == Finite(r.value)
  {
    match value
    case None => None
    case Some(v) =>
      StripSpacesIgnoresTrim(v);
      var n := number(Normalize(v));
      if n.Finite? then Some(n.value) else None
  }

  lemma {:induction false} StripSpacesConcat(a: string, b: string)
    ensures StripSpaces(a + b) == StripSpaces(a) + StripSpaces(b)
  {
    if a != [] {
      assert (a + b)[1..] == a[1..] + b;
      StripSpacesConcat(a[1..], b);
    } else {
      assert a + b == b;
    }
  }

  lemma {:induction false} StripSpacesIgnoresTrimStart(s: string)
    ensures StripSpaces(TrimStart(s)) == StripSpaces(s)
  {
    if s != [] && IsJsSpace(s[0]) {
      StripSpacesIgnoresTrimStart(s[1..]);
    }
  }

  lemma {:induction false} StripSpacesIgnoresTrimEnd(s: string)
    ensures StripSpaces(TrimEnd(s)) == StripSpaces(s)
  {
    if s != [] && IsJsSpace(s[|s| - 1]) {
      var init := s[..|s| - 1];
      StripSpacesIgnoresTrimEnd(init);
      assert s == init + [s[|s| - 1]];
      StripSpacesConcat(init, [s[|s| - 1]]);
      assert StripSpaces([s[|s| - 1]]) == [];
    }
  }

  /** Trimming first changes nothing: the whitespace it would remove is deleted anyway. */
  lemma StripSpacesIgnoresTrim(s: string)
    ensures StripSpaces(Trim(s)) == StripSpaces(s)
  {
    StripSpacesIgnoresTrimStart(s);
    StripSpacesIgnoresTrimEnd(TrimStart(s));
  }

  /** The result depends only on the input with its white space removed and commas made dots. */
  lemma {:induction false} SameCleanedSameNumber(s: string, t: string, number: string -> JsNumber)
    requires CommasToDots(StripSpaces(s)) == CommasToDots(StripSpaces(t))
    ensures ToNumberOrNull(Some(s), number) == ToNumberOrNull(Some(t), number)
  {
  }

  lemma {:induction false} CommasToDotsConcat(a: string, b: string)
    ensures CommasToDots(a + b) == CommasToDots(a) + CommasToDots(b)
  {
    if a != [] {
      assert (a + b)[1..] == a[1..] + b;
      CommasToDotsConcat(a[1..], b);
    } else {
      assert a + b == b;
    }
  }

  lemma {:induction false} NoSpacesStripUnchanged(s: string)
    requires forall i :: 0 <= i < |s| ==> !IsJsSpace(s[i])
    ensures StripSpaces(s) == s
  {
    if s != [] {
      NoSpacesStripUnchanged(s[1..]);
    }
  }

  /** A white-space character anywhere in the input does not change the number it yields. */
  lemma SpaceIsIgnored(a: string, c: char, b: string, number: string -> JsNumber)
    requires IsJsSpace(c)
    ensures ToNumberOrNull(Some(a + [c] + b), number) == ToNumberOrNull(Some(a + b), number)
  {
    StripSpacesConcat(a + [c], b);
    StripSpacesConcat(a, [c]);
    StripSpacesConcat(a, b);
    assert StripSpaces([c]) == [];
    assert StripSpaces(a + [c] + b) == StripSpaces(a + b);
    SameCleanedSameNumber(a + [c] + b, a + b, number);
  }

  /** A comma is read exactly as a decimal point. */
  lemma CommaReadAsDot(a: string, b: string, number: string -> JsNumber)
    ensures ToNumberOrNull(Some(a + "," + b), number) == ToNumberOrNull(Some(a + "." + b), number)
  {
    var sa, sb := StripSpaces(a), StripSpaces(b);
    StripSpacesConcat(a + ",", b);
    StripSpacesConcat(a, ",");
    StripSpacesConcat(a + ".", b);
    StripSpacesConcat(a, ".");
    NoSpacesStripUnchanged(",");
    NoSpacesStripUnchanged(".");
    CommasToDotsConcat(sa + ",", sb);
    CommasToDotsConcat(sa, ",");
    CommasToDotsConcat(sa + ".", sb);
    CommasToDotsConcat(sa, ".");
    SameCleanedSameNumber(a + "," + b, a + "." + b, number);
  }

  /** A grouped, comma-decimal value such as "1 234,5" yields what its plain dotted form
      "1234.5" yields. */
  lemma GroupedDecimal(a: string, b: string, c: string, number: string -> JsNumber)
    ensures ToNumberOrNull(Some(a + " " + b + "," + c), number) == ToNumberOrNull(Some(a + b + "." + c), number)
  {
    var grouped, joined := a + " " + b + "," + c, a + (b + "," + c);
    GroupedRegrouped(a, b, c);
    SpaceIsIgnored(a, ' ', b + "," + c, number);
    assert ToNumberOrNull(Some(grouped), number) == ToNumberOrNull(Some(joined), number);
    CommaReadAsDot(a + b, c, number);
  }

  lemma GroupedRegrouped(a: string, b: string, c: string)
    ensures a + " " + b + "," + c == a + [' '] + (b + "," + c)
    ensures a + (b + "," + c) == a + b + "," + c
  {
  }

  /** A blank string reaches `Number()` as "", which JavaScript reads as 0: blank values
      become 0, not null. */
  lemma BlankBecomesNumberOfEmpty(s: string, number: string -> JsNumber)
    requires forall i :: 0 <= i < |s| ==> IsJsSpace(s[i])
    ensures Normalize(s) == ""
    ensures number("") == Finite(0.0) ==> ToNumberOrNull(Some(s), number) == Some(0.0)
  {
    AllSpacesStripToEmpty(s);
    StripSpacesIgnoresTrim(s);
    var stripped := StripSpaces(Trim(s));
    assert stripped == [];
    assert CommasToDots(stripped) == [];
  }

  lemma {:induction false} AllSpacesStripToEmpty(s: string)
    requires forall i :: 0 <= i < |s| ==> IsJsSpace(s[i])
    ensures StripSpaces(s) == []
  {
    if s != [] {
      AllSpacesStripToEmpty(s[1..]);
    }
  }
}

=== FILE: coordinator.dfy ===
/** The run coordinator of `wbTariffs.cron.ts`: the in-process `isRunning` flag, the
    cross-process advisory lock, the sync step and the upload it may trigger, the daily upload
    job, and what is scheduled at start-up.

    The lock reply, the outcome of the sync step and of each upload are inputs (they come
    from the database, the tariff API and Google Sheets). Every call the coordinator makes to
    a collaborator is recorded, in order, in `calls`. */
module Coordinator {
  import opened Wrappers
  import opened Payload
  import opened Reconcile

  /** The collaborators' operations the coordinator invokes. */
  datatype Call = AskLock | FetchAndSave | Upload | Unlock

  /** What `pg_try_advisory_lock` gave: the lock, a refusal, or an error from the query. */
  datatype LockReply = Granted | HeldElsewhere | LockQueryFailed

  /** How a `runTask` invocation ended; none of them is an error propagated to the caller. */
  datatype RunResult =
    | SkippedInProgress
    | SkippedLockUnavailable
    | SyncFailedLogged
    | NoChanges
    | Uploaded
    | UploadFailedLogged

  datatype DailyResult = DailyUploaded | DailyUploadFailedLogged

  /** `warehousesUpdated + warehousesInserted + tariffsInserted`. */
  function ChangeCount(c: Counts): nat {
    c.warehousesUpdated + c.warehousesInserted + c.tariffsInserted
  }

  /** `tryAcquireLock()`: an error while asking counts as not granted. */
  predicate Locked(reply: LockReply) {
    reply == Granted
  }

  /** The sync step reported at least one change. */
  predicate UploadDue(sync: Result<Counts, SyncError>) {
    sync.Success? && ChangeCount(sync.value) > 0
  }

  /** The calls one `runTask` makes when no other run is in progress. */
  function RunCalls(lock: LockReply, sync: Result<Counts, SyncError>): (calls: seq<Call>)
    ensures |calls| >= 1 && calls[0] == AskLock
    ensures !Locked(lock) ==> calls == [AskLock]
    ensures Locked(lock) ==> |calls| >= 3 && calls[1] == FetchAndSave && calls[|calls| - 1] == Unlock
  {
    if !Locked(lock) then [AskLock]
    else [AskLock, FetchAndSave] + (if UploadDue(sync) then [Upload] else []) + [Unlock]
  }

  /** One run asks for the lock once; only with the lock does it sync, and then it unlocks
      exactly once; it uploads exactly once when the sync reported a change, never otherwise. */
  lemma RunCallCounts(lock: LockReply, sync: Result<Counts, SyncError>)
    ensures multiset(RunCalls(lock, sync))[AskLock] == 1
    ensures multiset(RunCalls(lock, sync))[FetchAndSave] == (if Locked(lock) then 1 else 0)
    ensures multiset(RunCalls(lock, sync))[Unlock] == (if Locked(lock) then 1 else 0)
    ensures multiset(RunCalls(lock, sync))[Upload] == (if Locked(lock) && UploadDue(sync) then 1 else 0)
  {
    if Locked(lock) {
      var middle: seq<Call> := if UploadDue(sync) then [Upload] else [];
      assert RunCalls(lock, sync) == [AskLock, FetchAndSave] + middle + [Unlock];
      assert multiset(RunCalls(lock, sync)) == multiset([AskLock, FetchAndSave]) + multiset(middle) + multiset([Unlock]);
    }
  }

  /** How one `runTask` ends when no other run is in progress. */
  function RunOutcome(lock: LockReply, sync: Result<Counts, SyncError>, uploadOk: bool): (r: RunResult)
    ensures r != SkippedInProgress
    ensures r == SkippedLockUnavailable <==> !Locked(lock)
    ensures r == SyncFailedLogged <==> Locked(lock) && sync.Failure?
    ensures r == NoChanges <==> Locked(lock) && sync.Success? && ChangeCount(sync.value) == 0
    ensures r in {Uploaded, UploadFailedLogged} <==> Locked(lock) && UploadDue(sync)
    ensures r == Uploaded ==> uploadOk
    ensures r == UploadFailedLogged ==> !uploadOk
  {
    if !Locked(lock) then SkippedLockUnavailable
    else if sync.Failure? then SyncFailedLogged
    else if !UploadDue(sync) then NoChanges
    else if uploadOk then Uploaded
    else UploadFailedLogged
  }

  /** The inputs of one scheduled `runTask`. */
  datatype RunInputs = RunInputs(lock: LockReply, sync: Result<Counts, SyncError>, uploadOk: bool, releaseOk: bool)

  /** The calls made by runs triggered one after the other. */
  function ScheduleCalls(runs: seq<RunInputs>): seq<Call>
    decreases |runs|
  {
    if runs == [] then []
    else ScheduleCalls(runs[..|runs| - 1]) + RunCalls(runs[|runs| - 1].lock, runs[|runs| - 1].sync)
  }

  /** The schedule one run longer makes that run's calls after the others'. */
  lemma ScheduleCallsStep(runs: seq<RunInputs>, i: nat)
    requires i < |runs|
    ensures ScheduleCalls(runs[..i + 1]) == ScheduleCalls(runs[..i]) + RunCalls(runs[i].lock, runs[i].sync)
  {
    assert runs[..i + 1][..i] == runs[..i];
  }

  /** How each of `runs` ends, one after the other. */
  function Outcomes(runs: seq<RunInputs>): (results: seq<RunResult>)
    ensures |results| == |runs|
    ensures forall i :: 0 <= i < |runs| ==> results[i] == RunOutcome(runs[i].lock, runs[i].sync, runs[i].uploadOk)
  {
    seq(|runs|, i requires 0 <= i < |runs| => RunOutcome(runs[i].lock, runs[i].sync, runs[i].uploadOk))
  }

  lemma OutcomesStep(runs: seq<RunInputs>, i: nat)
    requires i < |runs|
    ensures Outcomes(runs[..i + 1]) == Outcomes(runs[..i]) + [RunOutcome(runs[i].lock, runs[i].sync, runs[i].uploadOk)]
  {
  }

  /** The runs among `runs` that get the lock and report a change. */
  function DueRuns(runs: seq<RunInputs>): nat
    decreases |runs|
  {
    if runs == [] then 0
    else DueRuns(runs[..|runs| - 1]) + (if Locked(runs[|runs| - 1].lock) && UploadDue(runs[|runs| - 1].sync) then 1 else 0)
  }

  /** The runs among `runs` that get the lock. */
  function LockedRuns(runs: seq<RunInputs>): nat
    decreases |runs|
  {
    if runs == [] then 0
    else LockedRuns(runs[..|runs| - 1]) + (if Locked(runs[|runs| - 1].lock) then 1 else 0)
  }

  /** Over any series of runs, uploads are exactly the runs that got the lock and saw a
      change, and every granted lock is released once. */
  lemma {:induction false} ScheduleCallCounts(runs: seq<RunInputs>)
    ensures multiset(ScheduleCalls(runs))[Upload] == DueRuns(runs)
    ensures multiset(ScheduleCalls(runs))[Unlock] == LockedRuns(runs)
    ensures multiset(ScheduleCalls(runs))[FetchAndSave] == LockedRuns(runs)
    ensures multiset(ScheduleCalls(runs))[AskLock] == |runs|
    decreases |runs|
  {
    if runs != [] {
      var k := |runs| - 1;
      ScheduleCallCounts(runs[..k]);
      RunCallCounts(runs[k].lock, runs[k].sync);
      assert multiset(ScheduleCalls(runs))
        == multiset(ScheduleCalls(runs[..k])) + multiset(RunCalls(runs[k].lock, runs[k].sync));
    }
  }

  /** The scheduling environment: `CRON_SCHEDULE`, `CRON_ENABLED`, `DAILY_UPLOAD_SCHEDULE`. */
  datatype CronEnv = CronEnv(cronSchedule: Option<string>, cronEnabled: Option<string>, dailyUploadSchedule: Option<string>)

  datatype Job = SyncJob(expression: string) | DailyUploadJob(expression: string)

  /** What module start-up does: a first run right away, and the registered cron jobs. */
  datatype BootPlan = BootPlan(startupRun: bool, jobs: seq<Job>)

  const DefaultSyncSchedule: string := "0 */1 * * *"
  const DefaultDailyUploadSchedule: string := "59 23 * * *"

  /** `String(process.env.CRON_ENABLED ?? "true") === "true"`. */
  predicate SchedulingEnabled(env: CronEnv) {
    env.cronEnabled.GetOr("true") == "true"
  }

  /** Lines 79-99: when scheduling is enabled, one start-up run, the hourly (by default) sync
      job and the daily upload job; when disabled, nothing at all. */
  function Boot(env: CronEnv): (plan: BootPlan)
    ensures SchedulingEnabled(env) <==> env.cronEnabled.None? || env.cronEnabled == Some("true")
    ensures !SchedulingEnabled(env) ==> !plan.startupRun && plan.jobs == []
    ensures SchedulingEnabled(env) ==>
              && plan.startupRun
              && plan.jobs == [SyncJob(env.cronSchedule.GetOr(DefaultSyncSchedule)),
                               DailyUploadJob(env.dailyUploadSchedule.GetOr(DefaultDailyUploadSchedule))]
  {
    if SchedulingEnabled(env) then
      BootPlan(true, [SyncJob(env.cronSchedule.GetOr(DefaultSyncSchedule)),
                      DailyUploadJob(env.dailyUploadSchedule.GetOr(DefaultDailyUploadSchedule))])
    else
      BootPlan(false, [])
  }

  /** The process-wide coordinator state. */
  class SyncCoordinator {
    /** The module-level `isRunning` flag. */
    var isRunning: bool
    /** Whether this process holds the advisory lock. */
    var lockHeld: bool
    /** Every call made to a collaborator, in order. */
    var calls: seq<Call>

    constructor ()
      ensures !isRunning && !lockHeld && calls == []
    {
      isRunning, lockHeld, calls := false, false, [];
    }

    /** `tryAcquireLock()`. */
    method TryAcquireLock(reply: LockReply) returns (locked: bool)
      modifies this
      ensures locked <==> Locked(reply)
      ensures lockHeld == (old(lockHeld) || locked)
      ensures calls == old(calls) + [AskLock] && isRunning == old(isRunning)
    {
      calls := calls + [AskLock];
      locked := match reply
        case Granted => true
        case HeldElsewhere => false
        case LockQueryFailed => false;
      if locked {
        lockHeld := true;
      }
    }

    /** `releaseLock()`: a failed unlock is logged and swallowed, and the lock stays held. */
    method ReleaseLock(ok: bool)
      modifies this
      ensures lockHeld == (old(lockHeld) && !ok)
      ensures calls == old(calls) + [Unlock] && isRunning == old(isRunning)
    {
      calls := calls + [Unlock];
      if ok {
        lockHeld := false;
      }
    }

    /** `runTask()`. `sync` is what `fetchAndSaveTariffsBox` returns or throws, `uploadOk`
        whether `uploadData` succeeds, `releaseOk` whether the unlock query succeeds. */
    method RunTask(lock: LockReply, sync: Result<Counts, SyncError>, uploadOk: bool, releaseOk: bool)
      returns (r: RunResult)
      modifies this
      ensures old(isRunning) ==>
                r == SkippedInProgress && isRunning && lockHeld == old(lockHeld) && calls == old(calls)
      ensures !old(isRunning) ==>
                && r == RunOutcome(lock, sync, uploadOk)
                && !isRunning
                && calls == old(calls) + RunCalls(lock, sync)
                && lockHeld == (if Locked(lock) then !releaseOk else old(lockHeld))
    {
      if isRunning {
        return SkippedInProgress;
      }
      isRunning := true;

      var locked := TryAcquireLock(lock);
      if !locked {
        isRunning := false;
        return SkippedLockUnavailable;
      }

      // try { ... } catch { ... } finally { releaseLock(); isRunning = false; }
      calls := calls + [FetchAndSave];
      match sync {
        case Failure(_) =>
          r := SyncFailedLogged;
        case Success(result) =>
          var changed := result.warehousesUpdated + result.warehousesInserted + result.tariffsInserted;
          if changed > 0 {
            calls := calls + [Upload];
            r := if uploadOk then Uploaded else UploadFailedLogged;
          } else {
            r := NoChanges;
          }
      }
      ReleaseLock(releaseOk);
      isRunning := false;
    }

    /** The daily job: uploads whether or not anything changed, does not look at `isRunning`
        or the lock, and swallows an upload failure. */
    method DailyUpload(uploadOk: bool) returns (r: DailyResult)
      modifies this
      ensures calls == old(calls) + [Upload]
      ensures isRunning == old(isRunning) && lockHeld == old(lockHeld)
      ensures r == DailyUploaded <==> uploadOk
    {
      calls := calls + [Upload];
      r := if uploadOk then DailyUploaded else DailyUploadFailedLogged;
    }

    /** Scheduled runs that fire one after another: each finds the flag down, so each makes
        exactly the calls `RunCalls` describes. */
    method RunScheduled(runs: seq<RunInputs>) returns (results: seq<RunResult>)
      requires !isRunning
      modifies this
      ensures !isRunning
      ensures calls == old(calls) + ScheduleCalls(runs)
      ensures results == Outcomes(runs)
    {
      results := [];
      ghost var start := calls;
      var i := 0;
      while i < |runs|
        invariant 0 <= i <= |runs|
        invariant !isRunning
        invariant calls == start + ScheduleCalls(runs[..i])
        invariant results == Outcomes(runs[..i])
      {
        var run := runs[i];
        ghost var done := ScheduleCalls(runs[..i]);
        ghost var before := calls;
        assert before == start + done;
        var r := RunTask(run.lock, run.sync, run.uploadOk, run.releaseOk);
        ghost var made := RunCalls(run.lock, run.sync);
        assert calls == before + made;
        assert r == RunOutcome(run.lock, run.sync, run.uploadOk);
        ScheduleCallsStep(runs, i);
        assert start + done + made == start + (done + made);
        OutcomesStep(runs, i);
        results := results + [r];
        i := i + 1;
      }
      assert runs[..i] == runs;
    }
  }
}

=== FILE: http_client.dfy ===
/** `fetchJson` of the tariff service: the request headers it builds and how it turns the
    outcome of the (retried, time-bounded) request into a JSON value or an error. The network,
    the abort timer and the retry loop are not modelled; their final outcome is an input. */
module HttpClient {
  import opened Wrappers
  import opened Json

  // ---------------------------------------------------------------- header names

  function LowerChar(c: char): char {
    if 'A' <= c <= 'Z' then (c as int + 32) as char else c
  }

  /** ASCII lower-casing; HTTP header names are ASCII and compared case-insensitively. */
  function LowerAscii(s: string): (r: string)
    ensures |r| == |s|
  {
    seq(|s|, i requires 0 <= i < |s| => LowerChar(s[i]))
  }

  predicate SameHeaderName(a: string, b: string) {
    LowerAscii(a) == LowerAscii(b)
  }

  /** `headers.has(name)`. */
  predicate HasHeader(h: map<string, string>, name: string) {
    exists k :: k in h && SameHeaderName(k, name)
  }

  /** `headers.set(name, value)`: every header of the same name (in any case) is replaced. */
  function SetHeader(h: map<string, string>, name: string, value: string): (r: map<string, string>)
    ensures name in r && r[name] == value
    ensures forall k :: k in h && !SameHeaderName(k, name) ==> k in r && r[k] == h[k]
    ensures forall k :: k in r ==> k == name || (k in h && !SameHeaderName(k, name))
  {
    (map k | k in h && !SameHeaderName(k, name) :: h[k])[name := value]
  }

  /** `if (env.WB_TOKEN)`: a configured token is one that is set and non-empty. */
  predicate TokenConfigured(token: Option<string>) {
    token.Some? && token.value != ""
  }

  /** The headers `fetchJson` sends: the caller's, plus `Authorization: Bearer <token>` when a
      token is configured and the caller did not set an Authorization header of its own. */
  function MergedHeaders(init: map<string, string>, token: Option<string>): (r: map<string, string>)
    ensures forall k :: k in init ==> k in r && r[k] == init[k]
    ensures (TokenConfigured(token) && !HasHeader(init, "Authorization"))
      ==> r == init["Authorization" := "Bearer " + token.value]
    ensures !(TokenConfigured(token) && !HasHeader(init, "Authorization")) ==> r == init
    ensures HasHeader(r, "Authorization") <==> HasHeader(init, "Authorization") || TokenConfigured(token)
  {
    if TokenConfigured(token) && !HasHeader(init, "Authorization") then
      var r := SetHeader(init, "Authorization", "Bearer " + token.value);
      assert r == init["Authorization" := "Bearer " + token.value];
      r
    else
      init
  }

  /** Merging twice is merging once. */
  lemma MergeIdempotent(init: map<string, string>, token: Option<string>)
    ensures MergedHeaders(MergedHeaders(init, token), token) == MergedHeaders(init, token)
  {
  }

  /** The `Headers` object `fetchJson` builds and mutates. */
  class Headers {
    var entries: map<string, string>

    constructor (init: map<string, string>)
      ensures entries == init
    {
      entries := init;
    }

    predicate Has(name: string)
      reads this
    {
      HasHeader(entries, name)
    }

    method Set(name: string, value: string)
      modifies this
      ensures entries == SetHeader(old(entries), name, value)
    {
      entries := SetHeader(entries, name, value);
    }
  }

  /** Lines 42-48 of `fetchJson`: copy the caller's headers, then add the bearer token. */
  method BuildRequestHeaders(init: map<string, string>, token: Option<string>) returns (headers: Headers)
    ensures fresh(headers)
    ensures headers.entries == MergedHeaders(init, token)
  {
    headers := new Headers(init);
    if TokenConfigured(token) {
      if !headers.Has("Authorization") {
        headers.Set("Authorization", "Bearer " + token.value);
      }
    }
  }

  // ---------------------------------------------------------------- request outcome

  const DefaultTimeoutMs: nat := 10000

  /** `init.timeout ?? this.defaultTimeout`. */
  function TimeoutMs(requested: Option<nat>): nat {
    requested.GetOr(DefaultTimeoutMs)
  }

  /** How the retried request ended. `body` is `None` when the body is not valid JSON. */
  datatype HttpReply =
    | Response(status: int, body: Option<Json>)
    | Aborted
    | NetworkFailure

  datatype FetchError =
    | HttpStatus(status: int)
    | Timeout(afterMs: nat)
    | Transport

  /** `response.ok`. */
  predicate IsOk(status: int) {
    200 <= status <= 299
  }

  /** What `fetchJson` returns or throws for a given outcome of the request. */
  function FetchJson(reply: HttpReply, requestedTimeout: Option<nat>): (r: Result<Json, FetchError>)
    ensures r.Success? <==> reply.Response? && IsOk(reply.status)
    ensures r.Success? && reply.body.None? ==> r.value == JNull
    ensures r.Success? && reply.body.Some? ==> r.value == reply.body.value
    ensures reply.Response? && !IsOk(reply.status) ==> r == Failure(HttpStatus(reply.status))
    ensures reply.Aborted? ==> r == Failure(Timeout(TimeoutMs(requestedTimeout)))
    ensures reply.NetworkFailure? ==> r == Failure(Transport)
  {
    match reply
    case Response(status, body) =>
      if IsOk(status) then Success(body.GetOr(JNull)) else Failure(HttpStatus(status))
    case Aborted => Failure(Timeout(TimeoutMs(requestedTimeout)))
    case NetworkFailure => Failure(Transport)
  }
}

=== FILE: json.dfy ===
/** The parsed JSON documents the tariff endpoint returns, with JavaScript's view of them. */
module Json {
  import opened Wrappers

  datatype Json =
    | JNull
    | JBool(b: bool)
    | JNumber(n: real)
    | JString(s: string)
    | JArray(items: seq<Json>)
    | JObject(fields: map<string, Json>)

  /** JavaScript truthiness of a JSON value: null, false, 0 and "" are falsy, everything else truthy. */
  predicate Truthy(j: Json) {
    match j
    case JNull => false
    case JBool(b) => b
    case JNumber(n) => n != 0.0
    case JString(s) => s != ""
    case JArray(_) => true
    case JObject(_) => true
  }

  /** Property access `j.key`: `None` stands for `undefined`, which is what every non-object
      value of a JSON document (and an object without that key) yields. */
  function Member(j: Json, key: string): (r: Option<Json>)
    ensures r.Some? <==> j.JObject? && key in j.fields
    ensures r.Some? ==> r.value == j.fields[key]
  {
    if j.JObject? && key in j.fields then Some(j.fields[key]) else None
  }
}

=== FILE: payload.dfy ===
/** `getTariffsBox` of the tariff service: the response envelope is unwrapped and the payload
    checked against the tariff-list schema (a predicate over JSON standing in for the Zod
    schema `wareHouseListSchema`). */
module Payload {
  import opened Wrappers
  import opened Json
  import opened HttpClient

  /** One element of `warehouseList`: eleven string fields. */
  datatype WarehouseTariff = WarehouseTariff(
    boxDeliveryBase: string,
    boxDeliveryCoefExpr: string,
    boxDeliveryLiter: string,
    boxDeliveryMarketplaceBase: string,
    boxDeliveryMarketplaceCoefExpr: string,
    boxDeliveryMarketplaceLiter: string,
    boxStorageBase: string,
    boxStorageCoefExpr: string,
    boxStorageLiter: string,
    geoName: string,
    warehouseName: string)

  /** A validated tariff snapshot (`WareHouseList`). */
  datatype WareHouseList = WareHouseList(dtNextBox: string, dtTillMax: string, warehouseList: seq<WarehouseTariff>)

  /** The keys the schema requires of each `warehouseList` element. */
  const WarehouseFields: seq<string> := [
    "boxDeliveryBase", "boxDeliveryCoefExpr", "boxDeliveryLiter",
    "boxDeliveryMarketplaceBase", "boxDeliveryMarketplaceCoefExpr", "boxDeliveryMarketplaceLiter",
    "boxStorageBase", "boxStorageCoefExpr", "boxStorageLiter",
    "geoName", "warehouseName"]

  /** `z.string()` applied to `j[key]`. */
  predicate IsStringField(j: Json, key: string) {
    Member(j, key).Some? && Member(j, key).value.JString?
  }

  function StringField(j: Json, key: string): string
    requires IsStringField(j, key)
  {
    Member(j, key).value.s
  }

  /** The element schema: an object (extra keys allowed) whose eleven listed fields are strings. */
  predicate IsWarehouseTariff(j: Json) {
    && j.JObject?
    && IsStringField(j, "boxDeliveryBase")
    && IsStringField(j, "boxDeliveryCoefExpr")
    && IsStringField(j, "boxDeliveryLiter")
    && IsStringField(j, "boxDeliveryMarketplaceBase")
    && IsStringField(j, "boxDeliveryMarketplaceCoefExpr")
    && IsStringField(j, "boxDeliveryMarketplaceLiter")
    && IsStringField(j, "boxStorageBase")
    && IsStringField(j, "boxStorageCoefExpr")
    && IsStringField(j, "boxStorageLiter")
    && IsStringField(j, "geoName")
    && IsStringField(j, "warehouseName")
  }

  /** The top-level schema: string `dtNextBox` and `dtTillMax`, and an array `warehouseList`
      every element of which satisfies the element schema. */
  predicate IsWareHouseList(j: Json) {
    && j.JObject?
    && IsStringField(j, "dtNextBox")
    && IsStringField(j, "dtTillMax")
    && Member(j, "warehouseList").Some?
    && Member(j, "warehouseList").value.JArray?
    && forall i :: 0 <= i < |Member(j, "warehouseList").value.items| ==>
         IsWarehouseTariff(Member(j, "warehouseList").value.items[i])
  }

  function ParseWarehouseTariff(j: Json): WarehouseTariff
    requires IsWarehouseTariff(j)
  {
    WarehouseTariff(
      StringField(j, "boxDeliveryBase"),
      StringField(j, "boxDeliveryCoefExpr"),
      StringField(j, "boxDeliveryLiter"),
      StringField(j, "boxDeliveryMarketplaceBase"),
      StringField(j, "boxDeliveryMarketplaceCoefExpr"),
      StringField(j, "boxDeliveryMarketplaceLiter"),
      StringField(j, "boxStorageBase"),
      StringField(j, "boxStorageCoefExpr"),
      StringField(j, "boxStorageLiter"),
      StringField(j, "geoName"),
      StringField(j, "warehouseName"))
  }

  /** `wareHouseListSchema.safeParse(payload)`: the whole snapshot or nothing. */
  function SafeParse(j: Json): (r: Option<WareHouseList>)
    ensures r.Some? <==> IsWareHouseList(j)
    ensures r.Some? ==> |r.value.warehouseList| == |Member(j, "warehouseList").value.items|
    ensures r.Some? ==> r.value.dtNextBox == StringField(j, "dtNextBox") && r.value.dtTillMax == StringField(j, "dtTillMax")
    ensures r.Some? ==> forall i :: 0 <= i < |r.value.warehouseList| ==>
              r.value.warehouseList[i] == ParseWarehouseTariff(Member(j, "warehouseList").value.items[i])
  {
    if IsWareHouseList(j) then
      var items := Member(j, "warehouseList").value.items;
      Some(WareHouseList(
        StringField(j, "dtNextBox"),
        StringField(j, "dtTillMax"),
        seq(|items|, i requires 0 <= i < |items| && IsWarehouseTariff(items[i]) => ParseWarehouseTariff(items[i]))))
    else
      None
  }

  /** The parsed element holds, under every schema key, exactly the string the document
      holds there. */
  lemma ParsedFieldsAgree(j: Json)
    requires IsWarehouseTariff(j)
    ensures forall key :: key in WarehouseFields ==>
              Member(EncodeWarehouseTariff(ParseWarehouseTariff(j)), key) == Member(j, key)
  {
    var e := EncodeWarehouseTariff(ParseWarehouseTariff(j));
    assert Member(e, "boxDeliveryBase") == Member(j, "boxDeliveryBase");
    assert Member(e, "boxDeliveryCoefExpr") == Member(j, "boxDeliveryCoefExpr");
    assert Member(e, "boxDeliveryLiter") == Member(j, "boxDeliveryLiter");
    assert Member(e, "boxDeliveryMarketplaceBase") == Member(j, "boxDeliveryMarketplaceBase");
    assert Member(e, "boxDeliveryMarketplaceCoefExpr") == Member(j, "boxDeliveryMarketplaceCoefExpr");
    assert Member(e, "boxDeliveryMarketplaceLiter") == Member(j, "boxDeliveryMarketplaceLiter");
    assert Member(e, "boxStorageBase") == Member(j, "boxStorageBase");
    assert Member(e, "boxStorageCoefExpr") == Member(j, "boxStorageCoefExpr");
    assert Member(e, "boxStorageLiter") == Member(j, "boxStorageLiter");
    assert Member(e, "geoName") == Member(j, "geoName");
    assert Member(e, "warehouseName") == Member(j, "warehouseName");
  }

  /** The snapshot `safeParse` accepts holds the document's own strings: both dates, and
      every schema field of every element. Extra keys are ignored, never used. */
  lemma SafeParseKeepsValues(j: Json)
    requires IsWareHouseList(j)
    ensures var list := SafeParse(j).value;
      var items := Member(j, "warehouseList").value.items;
      && Member(Encode(list), "dtNextBox") == Member(j, "dtNextBox")
      && Member(Encode(list), "dtTillMax") == Member(j, "dtTillMax")
      && |list.warehouseList| == |items|
      && forall i, key :: 0 <= i < |items| && key in WarehouseFields ==>
           Member(EncodeWarehouseTariff(list.warehouseList[i]), key) == Member(items[i], key)
  {
    var items := Member(j, "warehouseList").value.items;
    forall i | 0 <= i < |items|
      ensures forall key :: key in WarehouseFields ==>
                Member(EncodeWarehouseTariff(SafeParse(j).value.warehouseList[i]), key) == Member(items[i], key)
    {
      ParsedFieldsAgree(items[i]);
    }
  }

  /** Any missing or non-string field of any element rejects the whole payload. */
  lemma MissingFieldRejects(j: Json, i: nat, key: string)
    requires Member(j, "warehouseList").Some? && Member(j, "warehouseList").value.JArray?
    requires i < |Member(j, "warehouseList").value.items|
    requires key in WarehouseFields && !IsStringField(Member(j, "warehouseList").value.items[i], key)
    ensures SafeParse(j) == None
  {
  }

  /** A missing or non-string `dtNextBox` or `dtTillMax` rejects the payload. */
  lemma MissingDateRejects(j: Json, key: string)
    requires key == "dtNextBox" || key == "dtTillMax"
    requires !IsStringField(j, key)
    ensures SafeParse(j) == None
  {
  }

  // ---------------------------------------------------------------- the schema's inverse

  function EncodeWarehouseTariff(w: WarehouseTariff): Json {
    JObject(map[
      "boxDeliveryBase" := JString(w.boxDeliveryBase),
      "boxDeliveryCoefExpr" := JString(w.boxDeliveryCoefExpr),
      "boxDeliveryLiter" := JString(w.boxDeliveryLiter),
      "boxDeliveryMarketplaceBase" := JString(w.boxDeliveryMarketplaceBase),
      "boxDeliveryMarketplaceCoefExpr" := JString(w.boxDeliveryMarketplaceCoefExpr),
      "boxDeliveryMarketplaceLiter" := JString(w.boxDeliveryMarketplaceLiter),
      "boxStorageBase" := JString(w.boxStorageBase),
      "boxStorageCoefExpr" := JString(w.boxStorageCoefExpr),
      "boxStorageLiter" := JString(w.boxStorageLiter),
      "geoName" := JString(w.geoName),
      "warehouseName" := JString(w.warehouseName)])
  }

  /** The JSON document a tariff snapshot is sent as. */
  function Encode(list: WareHouseList): Json {
    var ws := list.warehouseList;
    JObject(map[
      "dtNextBox" := JString(list.dtNextBox),
      "dtTillMax" := JString(list.dtTillMax),
      "warehouseList" := JArray(seq(|ws|, i requires 0 <= i < |ws| => EncodeWarehouseTariff(ws[i])))])
  }

  lemma {:induction false} WarehouseTariffRoundTrip(w: WarehouseTariff)
    ensures IsWarehouseTariff(EncodeWarehouseTariff(w))
    ensures ParseWarehouseTariff(EncodeWarehouseTariff(w)) == w
  {
  }

  /** Every snapshot is accepted when sent as JSON, and parses back to itself. */
  lemma {:induction false} RoundTrip(list: WareHouseList)
    ensures SafeParse(Encode(list)) == Some(list)
  {
    var j := Encode(list);
    var items := Member(j, "warehouseList").value.items;
    forall i | 0 <= i < |items|
      ensures IsWarehouseTariff(items[i]) && ParseWarehouseTariff(items[i]) == list.warehouseList[i]
    {
      WarehouseTariffRoundTrip(list.warehouseList[i]);
    }
    assert IsWareHouseList(j);
    assert SafeParse(j).value.warehouseList == list.warehouseList;
  }

  // ---------------------------------------------------------------- envelope

  /** `json.response.data` exists and every step of that path is truthy, whatever other
      members the document or its `response` carry. */
  predicate HasTruthyData(json: Json) {
    && Member(json, "response").Some?
    && Truthy(Member(json, "response").value)
    && Member(Member(json, "response").value, "data").Some?
    && Truthy(Member(Member(json, "response").value, "data").value)
  }

  /** Line 83 of `getTariffsBox`: `json.response.data` when that path exists and is truthy,
      otherwise `json` itself. */
  function Unwrap(json: Json): (payload: Json)
    ensures HasTruthyData(json) ==> payload == Member(Member(json, "response").value, "data").value
    ensures !HasTruthyData(json) ==> payload == json
    ensures payload == json || (json.JObject? && Truthy(payload))
  {
    var response := Member(json, "response");
    if Truthy(json) && response.Some? && Truthy(response.value)
       && Member(response.value, "data").Some? && Truthy(Member(response.value, "data").value)
    then Member(response.value, "data").value
    else json
  }

  /** The envelope `{ response: { data: p } }`. */
  function Wrap(p: Json): Json {
    JObject(map["response" := JObject(map["data" := p])])
  }

  /** A wrapped truthy payload is unwrapped to itself. */
  lemma UnwrapWrapped(p: Json)
    requires Truthy(p)
    ensures Unwrap(Wrap(p)) == p
  {
  }

  /** A document without a `response` member is taken as the payload unchanged. */
  lemma UnwrapRaw(json: Json)
    requires Member(json, "response").None?
    ensures Unwrap(json) == json
  {
  }

  /** A payload is judged the same whether it arrives raw or wrapped. */
  lemma WrappedAcceptedAsRaw(p: Json)
    requires Member(p, "response").None?
    ensures Truthy(p) ==> SafeParse(Unwrap(Wrap(p))) == SafeParse(Unwrap(p))
    ensures IsWareHouseList(p) ==> SafeParse(Unwrap(Wrap(p))) == SafeParse(p) && SafeParse(p).Some?
  {
    if Truthy(p) {
      UnwrapWrapped(p);
    }
    UnwrapRaw(p);
  }

  // ---------------------------------------------------------------- getTariffsBox

  const TariffsEndpoint: string := "https://common-api.wildberries.ru/api/v1/tariffs/box"

  /** The tariff call uses its own 8 second bound instead of the 10 second default. */
  const TariffsTimeoutMs: nat := 8000

  /** The request URL with the sync date as its `date` query parameter. */
  function RequestUrl(today: string): string {
    TariffsEndpoint + "?date=" + today
  }

  /** Why a sync step failed; the validation error carries the request URL and the raw
      document (before unwrapping) for diagnosis. */
  datatype SyncError =
    | FetchFailed(cause: FetchError)
    | ValidationFailed(requestUrl: string, raw: Json)
    | TransactionFailed

  /** `getTariffsBox()`: fetch, unwrap, validate. */
  function GetTariffsBox(today: string, reply: HttpReply): (r: Result<WareHouseList, SyncError>)
    ensures FetchJson(reply, Some(TariffsTimeoutMs)).Failure? ==>
              r == Failure(FetchFailed(FetchJson(reply, Some(TariffsTimeoutMs)).error))
    ensures FetchJson(reply, Some(TariffsTimeoutMs)).Success? ==>
              var json := FetchJson(reply, Some(TariffsTimeoutMs)).value;
              && (r.Success? <==> IsWareHouseList(Unwrap(json)))
              && (r.Success? ==> SafeParse(Unwrap(json)) == Some(r.value))
              && (r.Failure? ==> r.error == ValidationFailed(RequestUrl(today), json))
  {
    match FetchJson(reply, Some(TariffsTimeoutMs))
    case Failure(e) => Failure(FetchFailed(e))
    case Success(json) =>
      var payload := Unwrap(json);
      match SafeParse(payload)
      case None => Failure(ValidationFailed(RequestUrl(today), json))
      case Some(data) => Success(data)
  }

  /** A 2xx reply whose body is the wrapped form of a snapshot yields that snapshot. */
  lemma WrappedReplyYieldsSnapshot(today: string, status: int, list: WareHouseList)
    requires IsOk(status)
    ensures GetTariffsBox(today, Response(status, Some(Wrap(Encode(list))))) == Success(list)
    ensures GetTariffsBox(today, Response(status, Some(Encode(list)))) == Success(list)
  {
    RoundTrip(list);
    UnwrapWrapped(Encode(list));
    assert Member(Encode(list), "response").None?;
    UnwrapRaw(Encode(list));
  }
}

=== FILE: reconcile.dfy ===
/** `saveWarehouseList` of the tariff service: one transaction that upserts the snapshot into
    the tables `wh_tariffs`, `warehouses` and `wh_location`, counting inserts and updates.

    Each table is a map from `warehouse_name` to its row: the migration makes `warehouse_name`
    the primary key of all three tables, so a table holds at most one row per name. The two
    tariff tables carry the day the row was written; `wh_location` does not. */
module Reconcile {
  import opened Wrappers
  import opened Coercion
  import opened Payload

  /** A calendar day, `YYYY-MM-DD`. */
  type Day = string

  /** One element of a row list built from the snapshot: the warehouse name and the columns. */
  datatype Keyed<P> = Keyed(name: string, payload: P)

  /** A row of a day-partitioned table: the day it was written and its columns. */
  datatype DayRow<P> = DayRow(date: Day, payload: P)

  type DayTable<P> = map<string, DayRow<P>>

  /** The columns of `wh_tariffs`. */
  datatype TariffWindow = TariffWindow(dtNextBox: string, dtTillMax: string)

  /** The nine tariff columns of `warehouses`, each a nullable number. */
  datatype BoxTariffs = BoxTariffs(
    boxDeliveryBase: Option<real>,
    boxDeliveryCoefExpr: Option<real>,
    boxDeliveryLiter: Option<real>,
    boxDeliveryMarketplaceBase: Option<real>,
    boxDeliveryMarketplaceCoefExpr: Option<real>,
    boxDeliveryMarketplaceLiter: Option<real>,
    boxStorageBase: Option<real>,
    boxStorageCoefExpr: Option<real>,
    boxStorageLiter: Option<real>)

  /** The three tables; `locations` maps a name to its `geo_name`. */
  datatype Tables = Tables(
    tariffs: DayTable<TariffWindow>,
    warehouses: DayTable<BoxTariffs>,
    locations: map<string, string>)

  /** What `saveWarehouseList` returns. */
  datatype Counts = Counts(tariffsInserted: nat, warehousesUpdated: nat, warehousesInserted: nat)

  /** Updates and inserts performed on one table. */
  datatype Tally = Tally(updated: nat, inserted: nat)

  // ---------------------------------------------------------------- row lists (lines 105-127)

  function WarehouseNames(data: WareHouseList): seq<string> {
    seq(|data.warehouseList|, i requires 0 <= i < |data.warehouseList| => data.warehouseList[i].warehouseName)
  }

  function RowsTariffs(data: WareHouseList): seq<Keyed<TariffWindow>> {
    seq(|data.warehouseList|, i requires 0 <= i < |data.warehouseList| =>
      Keyed(data.warehouseList[i].warehouseName, TariffWindow(data.dtNextBox, data.dtTillMax)))
  }

  /** The nine tariff strings of one element, each through `toNumberOrNull`. */
  function ConvertTariffs(w: WarehouseTariff, number: string -> JsNumber): BoxTariffs {
    BoxTariffs(
      ToNumberOrNull(Some(w.boxDeliveryBase), number),
      ToNumberOrNull(Some(w.boxDeliveryCoefExpr), number),
      ToNumberOrNull(Some(w.boxDeliveryLiter), number),
      ToNumberOrNull(Some(w.boxDeliveryMarketplaceBase), number),
      ToNumberOrNull(Some(w.boxDeliveryMarketplaceCoefExpr), number),
      ToNumberOrNull(Some(w.boxDeliveryMarketplaceLiter), number),
      ToNumberOrNull(Some(w.boxStorageBase), number),
      ToNumberOrNull(Some(w.boxStorageCoefExpr), number),
      ToNumberOrNull(Some(w.boxStorageLiter), number))
  }

  function RowsWarehouses(data: WareHouseList, number: string -> JsNumber): seq<Keyed<BoxTariffs>> {
    seq(|data.warehouseList|, i requires 0 <= i < |data.warehouseList| =>
      Keyed(data.warehouseList[i].warehouseName, ConvertTariffs(data.warehouseList[i], number)))
  }

  function RowsLocation(data: WareHouseList): seq<Keyed<string>> {
    seq(|data.warehouseList|, i requires 0 <= i < |data.warehouseList| =>
      Keyed(data.warehouseList[i].warehouseName, data.warehouseList[i].geoName))
  }

  function Names<P>(rows: seq<Keyed<P>>): (names: seq<string>)
    ensures |names| == |rows|
  {
    seq(|rows|, i requires 0 <= i < |rows| => rows[i].name)
  }

  function NameSet(names: seq<string>): set<string> {
    set n | n in names
  }

  /** The three row lists have one entry per snapshot element, in snapshot order, keyed by
      that element's name. */
  lemma RowListsFollowSnapshot(data: WareHouseList, number: string -> JsNumber)
    ensures Names(RowsTariffs(data)) == WarehouseNames(data)
    ensures Names(RowsWarehouses(data, number)) == WarehouseNames(data)
    ensures Names(RowsLocation(data)) == WarehouseNames(data)
    ensures |WarehouseNames(data)| == |data.warehouseList|
    ensures forall i :: 0 <= i < |data.warehouseList| ==>
      && RowsTariffs(data)[i].payload == TariffWindow(data.dtNextBox, data.dtTillMax)
      && RowsWarehouses(data, number)[i].payload == ConvertTariffs(data.warehouseList[i], number)
      && RowsLocation(data)[i].payload == data.warehouseList[i].geoName
  {
  }

  /** The position of the last occurrence of `n`: the one whose values win. */
  function LastIndex(names: seq<string>, n: string): (k: nat)
    requires n in names
    ensures k < |names| && names[k] == n
    ensures forall j :: k < j < |names| ==> names[j] != n
  {
    if names[|names| - 1] == n then |names| - 1 else LastIndex(names[..|names| - 1], n)
  }

  // ---------------------------------------------------------------- one table at a time

  /** What happens to a name whose only row is from an earlier day: as written it is left
      alone (`SkipStale`); `RefreshStale` rewrites it for today. */
  datatype StalePolicy = SkipStale | RefreshStale

  /** Whether the row of `n` is one the policy leaves untouched. */
  predicate KeptStale<P>(policy: StalePolicy, t: DayTable<P>, n: string, today: Day) {
    policy == SkipStale && n in t && t[n].date != today
  }

  /** How many of `names` (with repetitions) the policy leaves on a row from an earlier day;
      none with `RefreshStale`. */
  function StaleCount<P>(policy: StalePolicy, t: DayTable<P>, names: seq<string>, today: Day): (c: nat)
    ensures c <= |names|
    ensures policy == RefreshStale ==> c == 0
    decreases |names|
  {
    if names == [] then 0
    else
      StaleCount(policy, t, names[..|names| - 1], today)
        + (if KeptStale(policy, t, names[|names| - 1], today) then 1 else 0)
  }

  /** One row of lines 136-151 (or 153-168): update the row of this name dated today; if
      there is none, insert one unless a row of that name exists at all. */
  function UpsertDay<P>(t: DayTable<P>, row: Keyed<P>, today: Day, policy: StalePolicy): (DayTable<P>, Tally) {
    if row.name in t && t[row.name].date == today then
      (t[row.name := t[row.name].(payload := row.payload)], Tally(1, 0))
    else if row.name !in t then
      (t[row.name := DayRow(today, row.payload)], Tally(0, 1))
    else if policy == SkipStale then
      (t, Tally(0, 0))
    else
      (t[row.name := DayRow(today, row.payload)], Tally(1, 0))
  }

  /** One row touches only its own name; it is inserted exactly when the name had no row,
      and it is one write unless the policy keeps an earlier day's row, which then stays as
      it was. Any row it writes is today's, with the row's values. */
  lemma UpsertDayOneRow<P>(t: DayTable<P>, row: Keyed<P>, today: Day, policy: StalePolicy)
    ensures var r := UpsertDay(t, row, today, policy);
      && r.0.Keys == t.Keys + {row.name}
      && (forall n :: n in t && n != row.name ==> r.0[n] == t[n])
      && r.1.inserted == (if row.name in t then 0 else 1)
      && r.1.updated + r.1.inserted == (if KeptStale(policy, t, row.name, today) then 0 else 1)
      && (KeptStale(policy, t, row.name, today) ==> r.0 == t)
      && (!KeptStale(policy, t, row.name, today) ==> r.0[row.name] == DayRow(today, row.payload))
  {
  }

  /** The whole loop over a row list, in order. */
  function UpsertDayRows<P>(t: DayTable<P>, rows: seq<Keyed<P>>, today: Day, policy: StalePolicy): (DayTable<P>, Tally)
    decreases |rows|
  {
    if rows == [] then (t, Tally(0, 0))
    else
      var before := UpsertDayRows(t, rows[..|rows| - 1], today, policy);
      var after := UpsertDay(before.0, rows[|rows| - 1], today, policy);
      (after.0, Tally(before.1.updated + after.1.updated, before.1.inserted + after.1.inserted))
  }

  lemma NamesOfPrefix<P>(rows: seq<Keyed<P>>, k: nat)
    requires k <= |rows|
    ensures Names(rows[..k]) == Names(rows)[..k]
  {
  }

  /** Membership in the names of a row list, split at its last row. */
  lemma NamesSnoc<P>(rows: seq<Keyed<P>>, n: string)
    requires rows != []
    ensures n in Names(rows) <==> n in Names(rows[..|rows| - 1]) || n == rows[|rows| - 1].name
    ensures NameSet(Names(rows)) == NameSet(Names(rows[..|rows| - 1])) + {rows[|rows| - 1].name}
  {
    var k := |rows| - 1;
    NamesOfPrefix(rows, k);
    assert Names(rows) == Names(rows[..k]) + [rows[k].name];
  }

  /** What the loop leaves in the row of any name `n`. */
  lemma {:induction false} UpsertDayRowsAt<P>(t: DayTable<P>, rows: seq<Keyed<P>>, today: Day, policy: StalePolicy, n: string)
    ensures var t' := UpsertDayRows(t, rows, today, policy).0;
      && (n !in Names(rows) ==> (n in t' <==> n in t) && (n in t ==> t'[n] == t[n]))
      && (n in Names(rows) && KeptStale(policy, t, n, today) ==> n in t' && t'[n] == t[n])
      && (n in Names(rows) && !KeptStale(policy, t, n, today) ==>
            n in t' && t'[n] == DayRow(today, rows[LastIndex(Names(rows), n)].payload))
    decreases |rows|
  {
    if rows != [] {
      var k := |rows| - 1;
      var pre := rows[..k];
      NamesOfPrefix(rows, k);
      NamesSnoc(rows, n);
      UpsertDayRowsAt(t, pre, today, policy, n);
      var t1 := UpsertDayRows(t, pre, today, policy).0;
      assert UpsertDayRows(t, rows, today, policy).0 == UpsertDay(t1, rows[k], today, policy).0;
      if rows[k].name == n {
        assert LastIndex(Names(rows), n) == k;
      } else if n in Names(rows) {
        assert LastIndex(Names(rows), n) == LastIndex(Names(pre), n);
      }
    }
  }

  /** The loop leaves a row for every name it saw, and no other new row. */
  lemma UpsertDayRowsKeys<P>(t: DayTable<P>, rows: seq<Keyed<P>>, today: Day, policy: StalePolicy)
    ensures UpsertDayRows(t, rows, today, policy).0.Keys == t.Keys + NameSet(Names(rows))
  {
    var t' := UpsertDayRows(t, rows, today, policy).0;
    forall n
      ensures n in t' <==> n in t || n in NameSet(Names(rows))
    {
      UpsertDayRowsAt(t, rows, today, policy, n);
    }
  }

  /** Adding one name to the names seen adds one new name exactly when it was neither seen
      nor already stored. */
  lemma NewNamesStep(seen: set<string>, stored: set<string>, m: string)
    ensures |(seen + {m}) - stored| == |seen - stored| + (if m in stored || m in seen then 0 else 1)
  {
    if m in stored || m in seen {
      assert (seen + {m}) - stored == seen - stored;
    } else {
      assert (seen + {m}) - stored == (seen - stored) + {m};
    }
  }

  /** One insert per name that had no row at all; at most one write per row. */
  lemma {:induction false} UpsertDayRowsTally<P>(t: DayTable<P>, rows: seq<Keyed<P>>, today: Day, policy: StalePolicy)
    ensures UpsertDayRows(t, rows, today, policy).1.inserted == |NameSet(Names(rows)) - t.Keys|
    ensures UpsertDayRows(t, rows, today, policy).1.updated + UpsertDayRows(t, rows, today, policy).1.inserted <= |rows|
    decreases |rows|
  {
    if rows != [] {
      var k := |rows| - 1;
      var pre := rows[..k];
      var m := rows[k].name;
      var before := UpsertDayRows(t, pre, today, policy);
      var after := UpsertDay(before.0, rows[k], today, policy);
      assert UpsertDayRows(t, rows, today, policy).1
        == Tally(before.1.updated + after.1.updated, before.1.inserted + after.1.inserted);
      assert after.1.inserted == (if m in before.0 then 0 else 1);
      assert after.1.updated + after.1.inserted <= 1;
      assert m in before.0 <==> m in t.Keys || m in NameSet(Names(pre)) by {
        UpsertDayRowsKeys(t, pre, today, policy);
      }
      assert NameSet(Names(rows)) == NameSet(Names(pre)) + {m} by {
        NamesSnoc(rows, m);
      }
      UpsertDayRowsTally(t, pre, today, policy);
      NewNamesStep(NameSet(Names(pre)), t.Keys, m);
    }
  }

  /** Every row is exactly one write, an update or an insert, except the rows whose name the
      policy leaves on an earlier day's row: `updated` is `|rows| - inserted - StaleCount`. */
  lemma {:induction false} UpsertDayRowsWrites<P>(t: DayTable<P>, rows: seq<Keyed<P>>, today: Day, policy: StalePolicy)
    ensures var tally := UpsertDayRows(t, rows, today, policy).1;
      tally.updated + tally.inserted + StaleCount(policy, t, Names(rows), today) == |rows|
    decreases |rows|
  {
    if rows != [] {
      var k := |rows| - 1;
      var pre := rows[..k];
      var m := rows[k].name;
      var before := UpsertDayRows(t, pre, today, policy);
      var after := UpsertDay(before.0, rows[k], today, policy);
      assert UpsertDayRows(t, rows, today, policy).1
        == Tally(before.1.updated + after.1.updated, before.1.inserted + after.1.inserted);
      assert StaleCount(policy, t, Names(rows), today)
        == StaleCount(policy, t, Names(pre), today) + (if KeptStale(policy, t, m, today) then 1 else 0) by {
        NamesOfPrefix(rows, k);
        assert Names(rows)[..k] == Names(pre);
      }
      assert after.1.updated + after.1.inserted == (if KeptStale(policy, t, m, today) then 0 else 1) by {
        UpsertDayRowsAt(t, pre, today, policy, m);
      }
      UpsertDayRowsWrites(t, pre, today, policy);
    }
  }

  /** When every row's name already has a row dated today, every row is an update. */
  lemma {:induction false} UpsertDayRowsAllCurrent<P>(t: DayTable<P>, rows: seq<Keyed<P>>, today: Day, policy: StalePolicy)
    requires forall j :: 0 <= j < |rows| ==> rows[j].name in t && t[rows[j].name].date == today
    ensures UpsertDayRows(t, rows, today, policy).1 == Tally(|rows|, 0)
    decreases |rows|
  {
    if rows != [] {
      var k := |rows| - 1;
      var pre := rows[..k];
      UpsertDayRowsAllCurrent(t, pre, today, policy);
      UpsertDayRowsAt(t, pre, today, policy, rows[k].name);
    }
  }

  /** As written, when every row's name has a row from another day, the loop changes and
      counts nothing. */
  lemma {:induction false} UpsertDayRowsAllStale<P>(t: DayTable<P>, rows: seq<Keyed<P>>, today: Day)
    requires forall j :: 0 <= j < |rows| ==> rows[j].name in t && t[rows[j].name].date != today
    ensures UpsertDayRows(t, rows, today, SkipStale) == (t, Tally(0, 0))
    decreases |rows|
  {
    if rows != [] {
      UpsertDayRowsAllStale(t, rows[..|rows| - 1], today);
    }
  }

  /** As written, rows saved into an empty table on one day are all skipped when the same
      names come again on another day: the table and its tally stay as they were. */
  lemma NextDaySkipsAll<P>(rows: seq<Keyed<P>>, day1: Day, day2: Day)
    requires day1 != day2
    ensures var t1 := UpsertDayRows(map[], rows, day1, SkipStale).0;
      && (forall n :: n in t1 ==> t1[n].date == day1)
      && UpsertDayRows(t1, rows, day2, SkipStale) == (t1, Tally(0, 0))
  {
    var t1 := UpsertDayRows(map[], rows, day1, SkipStale).0;
    forall n
      ensures n in Names(rows) ==> n in t1
      ensures n in t1 ==> t1[n].date == day1
    {
      UpsertDayRowsAt(map[], rows, day1, SkipStale, n);
    }
    assert forall j :: 0 <= j < |rows| ==> rows[j].name == Names(rows)[j];
    UpsertDayRowsAllStale(t1, rows, day2);
  }

  /** Running the loop again with the same rows on the same day changes nothing and inserts
      nothing. */
  lemma UpsertDayRowsIdempotent<P>(t: DayTable<P>, rows: seq<Keyed<P>>, today: Day, policy: StalePolicy)
    ensures var first := UpsertDayRows(t, rows, today, policy);
      var second := UpsertDayRows(first.0, rows, today, policy);
      second.0 == first.0 && second.1.inserted == 0
  {
    var t1 := UpsertDayRows(t, rows, today, policy).0;
    var t2 := UpsertDayRows(t1, rows, today, policy).0;
    forall n
      ensures (n in t2 <==> n in t1) && (n in t1 ==> t2[n] == t1[n])
    {
      UpsertDayRowsAt(t, rows, today, policy, n);
      UpsertDayRowsAt(t1, rows, today, policy, n);
    }
    UpsertDayRowsKeys(t, rows, today, policy);
    UpsertDayRowsTally(t1, rows, today, policy);
    assert NameSet(Names(rows)) - t1.Keys == {};
  }

  // ---------------------------------------------------------------- wh_location

  /** One row of lines 170-184: update by name alone, insert when there is none. */
  function UpsertLocation(l: map<string, string>, row: Keyed<string>): (map<string, string>, Tally) {
    if row.name in l then (l[row.name := row.payload], Tally(1, 0))
    else (l[row.name := row.payload], Tally(0, 1))
  }

  function UpsertLocationRows(l: map<string, string>, rows: seq<Keyed<string>>): (map<string, string>, Tally)
    decreases |rows|
  {
    if rows == [] then (l, Tally(0, 0))
    else
      var before := UpsertLocationRows(l, rows[..|rows| - 1]);
      var after := UpsertLocation(before.0, rows[|rows| - 1]);
      (after.0, Tally(before.1.updated + after.1.updated, before.1.inserted + after.1.inserted))
  }

  /** Every name seen ends with the `geo_name` of its last occurrence; other names keep theirs. */
  lemma {:induction false} UpsertLocationRowsAt(l: map<string, string>, rows: seq<Keyed<string>>, n: string)
    ensures var l' := UpsertLocationRows(l, rows).0;
      && (n !in Names(rows) ==> (n in l' <==> n in l) && (n in l ==> l'[n] == l[n]))
      && (n in Names(rows) ==> n in l' && l'[n] == rows[LastIndex(Names(rows), n)].payload)
    decreases |rows|
  {
    if rows != [] {
      var k := |rows| - 1;
      var pre := rows[..k];
      NamesOfPrefix(rows, k);
      NamesSnoc(rows, n);
      UpsertLocationRowsAt(l, pre, n);
      var l1 := UpsertLocationRows(l, pre).0;
      assert UpsertLocationRows(l, rows).0 == UpsertLocation(l1, rows[k]).0;
      if rows[k].name == n {
        assert LastIndex(Names(rows), n) == k;
      } else if n in Names(rows) {
        assert LastIndex(Names(rows), n) == LastIndex(Names(pre), n);
      }
    }
  }

  lemma UpsertLocationRowsKeys(l: map<string, string>, rows: seq<Keyed<string>>)
    ensures UpsertLocationRows(l, rows).0.Keys == l.Keys + NameSet(Names(rows))
  {
    var l' := UpsertLocationRows(l, rows).0;
    forall n
      ensures n in l' <==> n in l || n in NameSet(Names(rows))
    {
      UpsertLocationRowsAt(l, rows, n);
    }
  }

  /** One insert per name that had no location, every other row an update. */
  lemma {:induction false} UpsertLocationRowsTally(l: map<string, string>, rows: seq<Keyed<string>>)
    ensures UpsertLocationRows(l, rows).1.inserted == |NameSet(Names(rows)) - l.Keys|
    ensures UpsertLocationRows(l, rows).1.updated + UpsertLocationRows(l, rows).1.inserted == |rows|
    decreases |rows|
  {
    if rows != [] {
      var k := |rows| - 1;
      var pre := rows[..k];
      var m := rows[k].name;
      var before := UpsertLocationRows(l, pre);
      var after := UpsertLocation(before.0, rows[k]);
      assert UpsertLocationRows(l, rows).1
        == Tally(before.1.updated + after.1.updated, before.1.inserted + after.1.inserted);
      assert after.1 == (if m in before.0 then Tally(1, 0) else Tally(0, 1));
      assert m in before.0 <==> m in l.Keys || m in NameSet(Names(pre)) by {
        UpsertLocationRowsKeys(l, pre);
      }
      assert NameSet(Names(rows)) == NameSet(Names(pre)) + {m} by {
        NamesSnoc(rows, m);
      }
      UpsertLocationRowsTally(l, pre);
      NewNamesStep(NameSet(Names(pre)), l.Keys, m);
    }
  }

  lemma UpsertLocationRowsIdempotent(l: map<string, string>, rows: seq<Keyed<string>>)
    ensures var first := UpsertLocationRows(l, rows);
      var second := UpsertLocationRows(first.0, rows);
      second.0 == first.0 && second.1 == Tally(|rows|, 0)
  {
    var l1 := UpsertLocationRows(l, rows).0;
    var l2 := UpsertLocationRows(l1, rows).0;
    forall n
      ensures (n in l2 <==> n in l1) && (n in l1 ==> l2[n] == l1[n])
    {
      UpsertLocationRowsAt(l, rows, n);
      UpsertLocationRowsAt(l1, rows, n);
    }
    UpsertLocationRowsKeys(l, rows);
    UpsertLocationRowsTally(l1, rows);
    assert NameSet(Names(rows)) - l1.Keys == {};
  }

  // ---------------------------------------------------------------- the whole transaction

  datatype Reconciled = Reconciled(tables: Tables, counts: Counts)

  /** The effect of a committed `saveWarehouseList` transaction: the three loops in order,
      with `warehousesUpdated` summing the updates of all three tables and
      `warehousesInserted` the inserts into `warehouses` and `wh_location`. */
  function Reconcile(db: Tables, data: WareHouseList, today: Day, number: string -> JsNumber, policy: StalePolicy): Reconciled {
    var t := UpsertDayRows(db.tariffs, RowsTariffs(data), today, policy);
    var w := UpsertDayRows(db.warehouses, RowsWarehouses(data, number), today, policy);
    var l := UpsertLocationRows(db.locations, RowsLocation(data));
    Reconciled(
      Tables(t.0, w.0, l.0),
      Counts(t.1.inserted, t.1.updated + w.1.updated + l.1.updated, w.1.inserted + l.1.inserted))
  }

  /** The row of every name after a save: untouched unless the snapshot names it; a row from
      an earlier day kept as it was (as written); otherwise today's row with the values of the
      name's last occurrence. Every snapshot name has a row in all three tables. */
  lemma ReconcileAt(db: Tables, data: WareHouseList, today: Day, number: string -> JsNumber, policy: StalePolicy, n: string)
    ensures var db' := Reconcile(db, data, today, number, policy).tables;
      && (n !in WarehouseNames(data) ==>
            && (n in db'.tariffs <==> n in db.tariffs) && (n in db.tariffs ==> db'.tariffs[n] == db.tariffs[n])
            && (n in db'.warehouses <==> n in db.warehouses) && (n in db.warehouses ==> db'.warehouses[n] == db.warehouses[n])
            && (n in db'.locations <==> n in db.locations) && (n in db.locations ==> db'.locations[n] == db.locations[n]))
      && (n in WarehouseNames(data) ==>
            var last := data.warehouseList[LastIndex(WarehouseNames(data), n)];
            && n in db'.tariffs && n in db'.warehouses && n in db'.locations
            && db'.locations[n] == last.geoName
            && db'.tariffs[n] == (if KeptStale(policy, db.tariffs, n, today) then db.tariffs[n]
                                  else DayRow(today, TariffWindow(data.dtNextBox, data.dtTillMax)))
            && db'.warehouses[n] == (if KeptStale(policy, db.warehouses, n, today) then db.warehouses[n]
                                     else DayRow(today, ConvertTariffs(last, number))))
  {
    RowListsFollowSnapshot(data, number);
    UpsertDayRowsAt(db.tariffs, RowsTariffs(data), today, policy, n);
    UpsertDayRowsAt(db.warehouses, RowsWarehouses(data, number), today, policy, n);
    UpsertLocationRowsAt(db.locations, RowsLocation(data), n);
  }

  /** Partition isolation, as written: a row dated other than today is never modified, and a
      row is inserted only for a snapshot name that had no row at all, dated today. */
  lemma PartitionIsolation(db: Tables, data: WareHouseList, today: Day, number: string -> JsNumber)
    ensures var db' := Reconcile(db, data, today, number, SkipStale).tables;
      && (forall n :: n in db.tariffs && db.tariffs[n].date != today ==> n in db'.tariffs && db'.tariffs[n] == db.tariffs[n])
      && (forall n :: n in db.warehouses && db.warehouses[n].date != today ==> n in db'.warehouses && db'.warehouses[n] == db.warehouses[n])
      && (forall n :: n in db'.tariffs && n !in db.tariffs ==> n in WarehouseNames(data) && db'.tariffs[n].date == today)
      && (forall n :: n in db'.warehouses && n !in db.warehouses ==> n in WarehouseNames(data) && db'.warehouses[n].date == today)
  {
    forall n {
      ReconcileAt(db, data, today, number, SkipStale, n);
    }
  }

  /** `tariffsInserted` is the number of snapshot names that had no `wh_tariffs` row;
      `warehousesInserted` adds the names that had no `warehouses` row and those that had no
      `wh_location` row; `warehousesUpdated` is, per table, one write per snapshot element
      less that table's inserts and less the rows it keeps on an earlier day's row. */
  lemma ReconcileCounts(db: Tables, data: WareHouseList, today: Day, number: string -> JsNumber, policy: StalePolicy)
    ensures var c := Reconcile(db, data, today, number, policy).counts;
      var names := NameSet(WarehouseNames(data));
      && c.tariffsInserted == |names - db.tariffs.Keys|
      && c.warehousesInserted == |names - db.warehouses.Keys| + |names - db.locations.Keys|
      && c.warehousesUpdated
           == (|data.warehouseList| - |names - db.tariffs.Keys| - StaleCount(policy, db.tariffs, WarehouseNames(data), today))
            + (|data.warehouseList| - |names - db.warehouses.Keys| - StaleCount(policy, db.warehouses, WarehouseNames(data), today))
            + (|data.warehouseList| - |names - db.locations.Keys|)
      && c.tariffsInserted <= |data.warehouseList|
      && c.warehousesInserted <= 2 * |data.warehouseList|
      && c.tariffsInserted + c.warehousesUpdated + c.warehousesInserted <= 3 * |data.warehouseList|
  {
    RowListsFollowSnapshot(data, number);
    UpsertDayRowsTally(db.tariffs, RowsTariffs(data), today, policy);
    UpsertDayRowsTally(db.warehouses, RowsWarehouses(data, number), today, policy);
    UpsertDayRowsWrites(db.tariffs, RowsTariffs(data), today, policy);
    UpsertDayRowsWrites(db.warehouses, RowsWarehouses(data, number), today, policy);
    UpsertLocationRowsTally(db.locations, RowsLocation(data));
  }

  /** Saving the same snapshot twice on the same day: the second save inserts nothing and
      leaves the tables as the first left them. When no snapshot name had a row from an
      earlier day, every write of the second save is an update. */
  lemma ReconcileIdempotent(db: Tables, data: WareHouseList, today: Day, number: string -> JsNumber, policy: StalePolicy)
    ensures var first := Reconcile(db, data, today, number, policy);
      var second := Reconcile(first.tables, data, today, number, policy);
      && second.tables == first.tables
      && second.counts.tariffsInserted == 0
      && second.counts.warehousesInserted == 0
      && ((forall n :: n in WarehouseNames(data) ==> !KeptStale(policy, db.tariffs, n, today) && !KeptStale(policy, db.warehouses, n, today))
          ==> second.counts.warehousesUpdated == 3 * |data.warehouseList|)
  {
    var rt, rw, rl := RowsTariffs(data), RowsWarehouses(data, number), RowsLocation(data);
    var t1, w1, l1 := UpsertDayRows(db.tariffs, rt, today, policy), UpsertDayRows(db.warehouses, rw, today, policy), UpsertLocationRows(db.locations, rl);
    var t2, w2, l2 := UpsertDayRows(t1.0, rt, today, policy), UpsertDayRows(w1.0, rw, today, policy), UpsertLocationRows(l1.0, rl);
    var first := Reconcile(db, data, today, number, policy);
    assert first.tables == Tables(t1.0, w1.0, l1.0);
    var second := Reconcile(first.tables, data, today, number, policy);
    assert second == Reconciled(Tables(t2.0, w2.0, l2.0),
      Counts(t2.1.inserted, t2.1.updated + w2.1.updated + l2.1.updated, w2.1.inserted + l2.1.inserted));
    UpsertDayRowsIdempotent(db.tariffs, rt, today, policy);
    UpsertDayRowsIdempotent(db.warehouses, rw, today, policy);
    UpsertLocationRowsIdempotent(db.locations, rl);
    if forall n :: n in WarehouseNames(data) ==> !KeptStale(policy, db.tariffs, n, today) && !KeptStale(policy, db.warehouses, n, today) {
      ReconcileDatesToday(db, data, today, number, policy);
      UpsertDayRowsAllCurrent(t1.0, rt, today, policy);
      UpsertDayRowsAllCurrent(w1.0, rw, today, policy);
      assert |rl| == |rt| == |rw| == |data.warehouseList|;
    }
  }

  /** When no snapshot name is kept on an earlier day's row, every snapshot name has a row
      dated today in both day tables after the save. */
  lemma ReconcileDatesToday(db: Tables, data: WareHouseList, today: Day, number: string -> JsNumber, policy: StalePolicy)
    requires forall n :: n in WarehouseNames(data) ==> !KeptStale(policy, db.tariffs, n, today) && !KeptStale(policy, db.warehouses, n, today)
    ensures var db' := Reconcile(db, data, today, number, policy).tables;
      && (forall j :: 0 <= j < |RowsTariffs(data)| ==>
            RowsTariffs(data)[j].name in db'.tariffs && db'.tariffs[RowsTariffs(data)[j].name].date == today)
      && (forall j :: 0 <= j < |RowsWarehouses(data, number)| ==>
            RowsWarehouses(data, number)[j].name in db'.warehouses && db'.warehouses[RowsWarehouses(data, number)[j].name].date == today)
  {
    var rt, rw := RowsTariffs(data), RowsWarehouses(data, number);
    var db' := Reconcile(db, data, today, number, policy).tables;
    RowListsFollowSnapshot(data, number);
    forall j | 0 <= j < |rt|
      ensures rt[j].name in db'.tariffs && db'.tariffs[rt[j].name].date == today
      ensures rw[j].name in db'.warehouses && db'.warehouses[rw[j].name].date == today
    {
      assert rt[j].name == rw[j].name == WarehouseNames(data)[j];
      ReconcileAt(db, data, today, number, policy, rt[j].name);
    }
  }

  predicate DistinctNames(data: WareHouseList) {
    forall i, j :: 0 <= i < j < |data.warehouseList| ==>
      data.warehouseList[i].warehouseName != data.warehouseList[j].warehouseName
  }

  lemma {:induction false} DistinctNameSetSize(names: seq<string>)
    requires forall i, j :: 0 <= i < j < |names| ==> names[i] != names[j]
    ensures |NameSet(names)| == |names|
    decreases |names|
  {
    if names != [] {
      var k := |names| - 1;
      DistinctNameSetSize(names[..k]);
      assert NameSet(names) == NameSet(names[..k]) + {names[k]};
      assert names[k] !in NameSet(names[..k]);
    }
  }

  /** Saving a snapshot of distinct names into empty tables inserts one `wh_tariffs` row per
      name and counts two `warehousesInserted` per name (its `warehouses` row and its
      `wh_location` row), each warehouse row dated today with the coerced tariffs. */
  lemma FreshTablesScenario(data: WareHouseList, today: Day, number: string -> JsNumber)
    requires DistinctNames(data)
    ensures var r := Reconcile(Tables(map[], map[], map[]), data, today, number, SkipStale);
      && r.counts == Counts(|data.warehouseList|, 0, 2 * |data.warehouseList|)
      && forall i :: 0 <= i < |data.warehouseList| ==>
           var w := data.warehouseList[i];
           w.warehouseName in r.tables.warehouses
           && r.tables.warehouses[w.warehouseName] == DayRow(today, ConvertTariffs(w, number))
  {
    var empty := Tables(map[], map[], map[]);
    FreshTablesCounts(data, today, number);
    forall i | 0 <= i < |data.warehouseList|
      ensures data.warehouseList[i].warehouseName in Reconcile(empty, data, today, number, SkipStale).tables.warehouses
      ensures Reconcile(empty, data, today, number, SkipStale).tables.warehouses[data.warehouseList[i].warehouseName]
                == DayRow(today, ConvertTariffs(data.warehouseList[i], number))
    {
      var n := data.warehouseList[i].warehouseName;
      assert WarehouseNames(data)[i] == n;
      ReconcileAt(empty, data, today, number, SkipStale, n);
      assert LastIndex(WarehouseNames(data), n) == i;
    }
  }

  lemma FreshTablesCounts(data: WareHouseList, today: Day, number: string -> JsNumber)
    requires DistinctNames(data)
    ensures Reconcile(Tables(map[], map[], map[]), data, today, number, SkipStale).counts
              == Counts(|data.warehouseList|, 0, 2 * |data.warehouseList|)
  {
    var empty := Tables(map[], map[], map[]);
    var names := WarehouseNames(data);
    var n := |data.warehouseList|;
    var rt, rw, rl := RowsTariffs(data), RowsWarehouses(data, number), RowsLocation(data);
    assert Names(rt) == names && Names(rw) == names && Names(rl) == names && |names| == n by {
      RowListsFollowSnapshot(data, number);
    }
    assert |NameSet(names)| == n by {
      DistinctNameSetSize(names);
    }
    assert UpsertDayRows(empty.tariffs, rt, today, SkipStale).1 == Tally(0, n) by {
      UpsertDayRowsTally(empty.tariffs, rt, today, SkipStale);
      assert NameSet(names) - empty.tariffs.Keys == NameSet(names);
    }
    assert UpsertDayRows(empty.warehouses, rw, today, SkipStale).1 == Tally(0, n) by {
      UpsertDayRowsTally(empty.warehouses, rw, today, SkipStale);
      assert NameSet(names) - empty.warehouses.Keys == NameSet(names);
    }
    assert UpsertLocationRows(empty.locations, rl).1 == Tally(0, n) by {
      UpsertLocationRowsTally(empty.locations, rl);
      assert NameSet(names) - empty.locations.Keys == NameSet(names);
    }
  }

  // ---------------------------------------------------------------- the imperative code

  /** The loop of lines 136-151 (and 153-168) over one day-partitioned table. `failAt` is the
      row whose statement the database rejects, if any. With `SkipStale` this is the loop as
      written; `RefreshStale` also rewrites a name's row from an earlier day. */
  method ApplyDayRows<P>(table: DayTable<P>, rows: seq<Keyed<P>>, today: Day, policy: StalePolicy, failAt: Option<nat>)
    returns (t: DayTable<P>, updatedCount: nat, insertedCount: nat, failed: bool)
    ensures failed <==> failAt.Some? && failAt.value < |rows|
    ensures !failed ==> (t, Tally(updatedCount, insertedCount)) == UpsertDayRows(table, rows, today, policy)
  {
    t, updatedCount, insertedCount, failed := table, 0, 0, false;
    var i := 0;
    while i < |rows|
      invariant 0 <= i <= |rows|
      invariant (t, Tally(updatedCount, insertedCount)) == UpsertDayRows(table, rows[..i], today, policy)
      invariant failAt.Some? ==> i <= failAt.value
    {
      if failAt == Some(i) {
        failed := true;
        return;
      }
      var row := rows[i];
      // update ... where warehouse_name = row.name and date::date = today
      var updated := 0;
      if row.name in t && t[row.name].date == today {
        t := t[row.name := t[row.name].(payload := row.payload)];
        updated := 1;
      }
      if updated == 0 {
        var found := row.name in t;
        if !found {
          t := t[row.name := DayRow(today, row.payload)];
          insertedCount := insertedCount + 1;
        } else if policy == RefreshStale {
          t := t[row.name := DayRow(today, row.payload)];
          updatedCount := updatedCount + 1;
        }
      } else {
        updatedCount := updatedCount + updated;
      }
      assert rows[..i + 1][..i] == rows[..i];
      i := i + 1;
    }
    assert rows[..i] == rows;
  }

  /** The loop of lines 170-184 over `wh_location`. */
  method ApplyLocationRows(table: map<string, string>, rows: seq<Keyed<string>>, failAt: Option<nat>)
    returns (l: map<string, string>, updatedCount: nat, insertedCount: nat, failed: bool)
    ensures failed <==> failAt.Some? && failAt.value < |rows|
    ensures !failed ==> (l, Tally(updatedCount, insertedCount)) == UpsertLocationRows(table, rows)
  {
    l, updatedCount, insertedCount, failed := table, 0, 0, false;
    var i := 0;
    while i < |rows|
      invariant 0 <= i <= |rows|
      invariant (l, Tally(updatedCount, insertedCount)) == UpsertLocationRows(table, rows[..i])
      invariant failAt.Some? ==> i <= failAt.value
    {
      if failAt == Some(i) {
        failed := true;
        return;
      }
      var row := rows[i];
      // update ... where warehouse_name = row.name
      var updated := 0;
      if row.name in l {
        l := l[row.name := row.payload];
        updated := 1;
      }
      if updated == 0 {
        var found := row.name in l;
        if !found {
          l := l[row.name := row.payload];
          insertedCount := insertedCount + 1;
        }
      } else {
        updatedCount := updatedCount + updated;
      }
      assert rows[..i + 1][..i] == rows[..i];
      i := i + 1;
    }
    assert rows[..i] == rows;
  }

  datatype TableName = WhTariffs | Warehouses | WhLocation

  /** A statement the database rejects: the one for the given row of the given table. */
  datatype WriteFault = WriteFault(table: TableName, row: nat)

  function FaultIn(fault: Option<WriteFault>, table: TableName): (r: Option<nat>)
    ensures r.Some? <==> fault.Some? && fault.value.table == table
  {
    if fault.Some? && fault.value.table == table then Some(fault.value.row) else None
  }

  /** Whether the fault is reached: every row issues at least one statement in each table. */
  predicate FaultReached(fault: Option<WriteFault>, rowCount: nat) {
    fault.Some? && fault.value.row < rowCount
  }

  /** The body of the transaction of lines 129-187: the three loops in order over the
      transaction's view of the tables, stopping at the first rejected statement. */
  method RunTransaction(db: Tables, data: WareHouseList, today: Day, number: string -> JsNumber, policy: StalePolicy, fault: Option<WriteFault>)
    returns (r: Result<Reconciled, SyncError>)
    ensures r.Failure? <==> FaultReached(fault, |data.warehouseList|)
    ensures r.Success? ==> r.value == Reconcile(db, data, today, number, policy)
    ensures r.Failure? ==> r.error == TransactionFailed
  {
    var rowsTariffs := RowsTariffs(data);
    var rowsWarehouses := RowsWarehouses(data, number);
    var rowsLocation := RowsLocation(data);
    var tariffsInserted, warehousesUpdated, warehousesInserted := 0, 0, 0;
    ghost var spec := Reconcile(db, data, today, number, policy);
    ghost var t' := UpsertDayRows(db.tariffs, rowsTariffs, today, policy);
    ghost var w' := UpsertDayRows(db.warehouses, rowsWarehouses, today, policy);
    ghost var l' := UpsertLocationRows(db.locations, rowsLocation);
    assert spec.tables == Tables(t'.0, w'.0, l'.0);
    assert spec.counts == Counts(t'.1.inserted, t'.1.updated + w'.1.updated + l'.1.updated, w'.1.inserted + l'.1.inserted);

    var updated, inserted, failed;
    var t, w, l;
    t, updated, inserted, failed := ApplyDayRows(db.tariffs, rowsTariffs, today, policy, FaultIn(fault, WhTariffs));
    if failed {
      return Failure(TransactionFailed);
    }
    assert t == t'.0 && updated == t'.1.updated && inserted == t'.1.inserted;
    tariffsInserted, warehousesUpdated := tariffsInserted + inserted, warehousesUpdated + updated;
    assert tariffsInserted == t'.1.inserted && warehousesUpdated == t'.1.updated;

    w, updated, inserted, failed := ApplyDayRows(db.warehouses, rowsWarehouses, today, policy, FaultIn(fault, Warehouses));
    if failed {
      return Failure(TransactionFailed);
    }
    assert w == w'.0 && updated == w'.1.updated && inserted == w'.1.inserted;
    warehousesInserted, warehousesUpdated := warehousesInserted + inserted, warehousesUpdated + updated;
    assert warehousesInserted == w'.1.inserted && warehousesUpdated == t'.1.updated + w'.1.updated;

    l, updated, inserted, failed := ApplyLocationRows(db.locations, rowsLocation, FaultIn(fault, WhLocation));
    if failed {
      return Failure(TransactionFailed);
    }
    assert l == l'.0 && updated == l'.1.updated && inserted == l'.1.inserted;
    warehousesInserted, warehousesUpdated := warehousesInserted + inserted, warehousesUpdated + updated;
    assert warehousesInserted == w'.1.inserted + l'.1.inserted;
    assert warehousesUpdated == t'.1.updated + w'.1.updated + l'.1.updated;

    assert Tables(t, w, l) == spec.tables;
    assert Counts(tariffsInserted, warehousesUpdated, warehousesInserted) == spec.counts;
    r := Success(Reconciled(Tables(t, w, l), Counts(tariffsInserted, warehousesUpdated, warehousesInserted)));
  }

  /** The three tables, changed in place by the transaction. */
  class Store {
    var tariffs: DayTable<TariffWindow>
    var warehouses: DayTable<BoxTariffs>
    var locations: map<string, string>

    constructor (db: Tables)
      ensures State() == db
    {
      tariffs, warehouses, locations := db.tariffs, db.warehouses, db.locations;
    }

    function State(): Tables
      reads this
    {
      Tables(tariffs, warehouses, locations)
    }

    /** `saveWarehouseList(data)`: the transaction's writes become the stored tables on
        commit; a rejected statement rolls back, so nothing is stored, and the error
        propagates. `SkipStale` is the code as written, `RefreshStale` the corrected loop. */
    method SaveWarehouseList(data: WareHouseList, today: Day, number: string -> JsNumber, policy: StalePolicy, fault: Option<WriteFault>)
      returns (r: Result<Counts, SyncError>)
      modifies this
      ensures r.Failure? <==> FaultReached(fault, |data.warehouseList|)
      ensures r.Success? ==> Reconciled(State(), r.value) == Reconcile(old(State()), data, today, number, policy)
      ensures r.Failure? ==> State() == old(State()) && r.error == TransactionFailed
    {
      var before := State();
      var outcome := RunTransaction(before, data, today, number, policy, fault);
      if outcome.Failure? {
        return Failure(outcome.error);
      }
      var tables := outcome.value.tables;
      tariffs, warehouses, locations := tables.tariffs, tables.warehouses, tables.locations;
      r := Success(outcome.value.counts);
      assert old(State()) == before;
    }

    /** `fetchAndSaveTariffsBox()`: a snapshot that cannot be fetched or validated leaves the
        tables untouched. */
    method FetchAndSaveTariffsBox(today: Day, reply: HttpClient.HttpReply, number: string -> JsNumber, policy: StalePolicy, fault: Option<WriteFault>)
      returns (r: Result<Counts, SyncError>)
      modifies this
      ensures GetTariffsBox(today, reply).Failure? ==>
                r == Failure(GetTariffsBox(today, reply).error) && State() == old(State())
      ensures GetTariffsBox(today, reply).Success? ==>
                var data := GetTariffsBox(today, reply).value;
                && (r.Failure? <==> FaultReached(fault, |data.warehouseList|))
                && (r.Success? ==> Reconciled(State(), r.value) == Reconcile(old(State()), data, today, number, policy))
                && (r.Failure? ==> State() == old(State()))
    {
      var box := GetTariffsBox(today, reply);
      if box.Failure? {
        return Failure(box.error);
      }
      r := SaveWarehouseList(box.value, today, number, policy, fault);
    }
  }
}

=== FILE: sheet_export.dfy ===
/** `uploadData` of the spreadsheet service: today's joined warehouse rows shaped into a
    header plus 13-cell string rows, and the title of the sheet they are written to. The
    Google Sheets calls are not modelled; whether each succeeds is an input. */
module SheetExport {
  import opened Wrappers
  import opened Coercion
  import opened Payload
  import opened Reconcile

  /** One row of the export query: the thirteen selected columns, each nullable, as the
      database returns them (the tariff columns are stored as text). */
  datatype QueryRow = QueryRow(
    warehouseName: Option<string>,
    geoName: Option<string>,
    boxDeliveryBase: Option<string>,
    boxDeliveryCoefExpr: Option<string>,
    boxDeliveryLiter: Option<string>,
    boxDeliveryMarketplaceBase: Option<string>,
    boxDeliveryMarketplaceCoefExpr: Option<string>,
    boxDeliveryMarketplaceLiter: Option<string>,
    boxStorageBase: Option<string>,
    boxStorageCoefExpr: Option<string>,
    boxStorageLiter: Option<string>,
    dtNextBox: Option<string>,
    dtTillMax: Option<string>)

  // ---------------------------------------------------------------- the query (lines 14-31)

  /** A warehouse is exported when its `warehouses` row is dated today and it has both a
      `wh_location` and a `wh_tariffs` row (an inner join; the tariff row may be older). */
  predicate Exported(db: Tables, today: Day, n: string) {
    n in db.warehouses && db.warehouses[n].date == today && n in db.locations && n in db.tariffs
  }

  /** A nullable number as stored in a text column; `show` is JavaScript's `String(number)`. */
  function Stored(v: Option<real>, show: real -> string): Option<string> {
    match v
    case None => None
    case Some(x) => Some(show(x))
  }

  /** The joined row of an exported warehouse: the name, `geo_name` from `wh_location`, the
      nine tariffs from `warehouses` and the two dates from `wh_tariffs`. */
  function JoinRow(db: Tables, n: string, show: real -> string): (row: QueryRow)
    requires n in db.warehouses && n in db.locations && n in db.tariffs
    ensures row.warehouseName == Some(n) && row.geoName == Some(db.locations[n])
    ensures row.dtNextBox == Some(db.tariffs[n].payload.dtNextBox)
    ensures row.dtTillMax == Some(db.tariffs[n].payload.dtTillMax)
    ensures var w := db.warehouses[n].payload;
      && row.boxDeliveryBase == Stored(w.boxDeliveryBase, show)
      && row.boxDeliveryCoefExpr == Stored(w.boxDeliveryCoefExpr, show)
      && row.boxDeliveryLiter == Stored(w.boxDeliveryLiter, show)
      && row.boxDeliveryMarketplaceBase == Stored(w.boxDeliveryMarketplaceBase, show)
      && row.boxDeliveryMarketplaceCoefExpr == Stored(w.boxDeliveryMarketplaceCoefExpr, show)
      && row.boxDeliveryMarketplaceLiter == Stored(w.boxDeliveryMarketplaceLiter, show)
      && row.boxStorageBase == Stored(w.boxStorageBase, show)
      && row.boxStorageCoefExpr == Stored(w.boxStorageCoefExpr, show)
      && row.boxStorageLiter == Stored(w.boxStorageLiter, show)
  {
    var w := db.warehouses[n].payload;
    var t := db.tariffs[n].payload;
    QueryRow(
      Some(n), Some(db.locations[n]),
      Stored(w.boxDeliveryBase, show), Stored(w.boxDeliveryCoefExpr, show), Stored(w.boxDeliveryLiter, show),
      Stored(w.boxDeliveryMarketplaceBase, show), Stored(w.boxDeliveryMarketplaceCoefExpr, show),
      Stored(w.boxDeliveryMarketplaceLiter, show),
      Stored(w.boxStorageBase, show), Stored(w.boxStorageCoefExpr, show), Stored(w.boxStorageLiter, show),
      Some(t.dtNextBox), Some(t.dtTillMax))
  }

  /** `order` is an order in which the database may return the join: every exported name
      exactly once (no ORDER BY, so any order). */
  ghost predicate IsJoinOrder(db: Tables, today: Day, order: seq<string>) {
    && (forall i, j :: 0 <= i < j < |order| ==> order[i] != order[j])
    && (forall i :: 0 <= i < |order| ==> Exported(db, today, order[i]))
    && (forall n :: Exported(db, today, n) ==> n in order)
  }

  /** The query result, in the database's order. */
  function ExportQuery(db: Tables, today: Day, show: real -> string, order: seq<string>): (data: seq<QueryRow>)
    requires IsJoinOrder(db, today, order)
    ensures |data| == |order|
    ensures forall i :: 0 <= i < |data| ==> data[i].warehouseName == Some(order[i]) && Exported(db, today, order[i])
    ensures forall i :: 0 <= i < |data| ==> Exported(db, today, order[i]) && data[i] == JoinRow(db, order[i], show)
  {
    seq(|order|, i requires 0 <= i < |order| && Exported(db, today, order[i]) => JoinRow(db, order[i], show))
  }

  // ---------------------------------------------------------------- shaping (lines 39-75)

  const Header: seq<string> := [
    "warehouseName", "geoName",
    "boxDeliveryBase", "boxDeliveryCoefExpr", "boxDeliveryLiter",
    "boxDeliveryMarketplaceBase", "boxDeliveryMarketplaceCoefExpr", "boxDeliveryMarketplaceLiter",
    "boxStorageBase", "boxStorageCoefExpr", "boxStorageLiter",
    "dtNextBox", "dtTillMax"]

  /** The column a header entry names. */
  function Column(row: QueryRow, name: string): Option<string> {
    if name == "warehouseName" then row.warehouseName
    else if name == "geoName" then row.geoName
    else if name == "boxDeliveryBase" then row.boxDeliveryBase
    else if name == "boxDeliveryCoefExpr" then row.boxDeliveryCoefExpr
    else if name == "boxDeliveryLiter" then row.boxDeliveryLiter
    else if name == "boxDeliveryMarketplaceBase" then row.boxDeliveryMarketplaceBase
    else if name == "boxDeliveryMarketplaceCoefExpr" then row.boxDeliveryMarketplaceCoefExpr
    else if name == "boxDeliveryMarketplaceLiter" then row.boxDeliveryMarketplaceLiter
    else if name == "boxStorageBase" then row.boxStorageBase
    else if name == "boxStorageCoefExpr" then row.boxStorageCoefExpr
    else if name == "boxStorageLiter" then row.boxStorageLiter
    else if name == "dtNextBox" then row.dtNextBox
    else if name == "dtTillMax" then row.dtTillMax
    else None
  }

  /** `v ?? ""`. */
  function TextCell(v: Option<string>): string {
    v.GetOr("")
  }

  /** `v != null ? String(v) : "-"`. */
  function ValueCell(v: Option<string>): string {
    if v.Some? then v.value else "-"
  }

  /** One data row, before the header-order property below is proved about it. */
  function DataRow(w: QueryRow): (cells: seq<string>)
    ensures |cells| == |Header|
  {
    [ TextCell(w.warehouseName), TextCell(w.geoName),
      ValueCell(w.boxDeliveryBase), ValueCell(w.boxDeliveryCoefExpr), ValueCell(w.boxDeliveryLiter),
      ValueCell(w.boxDeliveryMarketplaceBase), ValueCell(w.boxDeliveryMarketplaceCoefExpr),
      ValueCell(w.boxDeliveryMarketplaceLiter),
      ValueCell(w.boxStorageBase), ValueCell(w.boxStorageCoefExpr), ValueCell(w.boxStorageLiter),
      ValueCell(w.dtNextBox), ValueCell(w.dtTillMax) ]
  }

  /** Every data row has one cell per header column, and cell `j` renders the column that
      header entry `j` names: "" for a missing name or geo name, "-" for a missing value. */
  lemma DataRowFollowsHeader(w: QueryRow)
    ensures |Header| == 13 && |DataRow(w)| == |Header|
    ensures forall j :: 0 <= j < 2 ==> DataRow(w)[j] == TextCell(Column(w, Header[j]))
    ensures forall j :: 2 <= j < 13 ==> DataRow(w)[j] == ValueCell(Column(w, Header[j]))
  {
  }

  /** `data.map(...)`: one data row per query row, in the query's order. */
  function DataRows(data: seq<QueryRow>): (rows: seq<seq<string>>)
    ensures |rows| == |data|
    ensures forall i :: 0 <= i < |rows| ==> rows[i] == DataRow(data[i]) && |rows[i]| == |Header|
  {
    seq(|data|, i requires 0 <= i < |data| => DataRow(data[i]))
  }

  // ---------------------------------------------------------------- titles

  /** JavaScript's `s.slice(start, end)` for non-negative bounds. */
  function Slice(s: string, start: nat, end: nat): (r: string)
    ensures |r| <= |s| && (start <= end ==> |r| <= end - start)
    ensures start <= end <= |s| ==> r == s[start..end]
    ensures start == 0 ==> r == s[..|r|]
    ensures start <= |s| <= end ==> r == s[start..]
    ensures end <= start || |s| <= start ==> r == []
  {
    var from := if start < |s| then start else |s|;
    var to := if end < |s| then end else |s|;
    if to <= from then [] else s[from..to]
  }

  const TitlePrefix: string := "WB Tariffs "

  /** Lines 72-74: `"WB Tariffs " + today`, cut to 90 characters when longer. */
  function PrimaryTitle(today: string): (title: string)
    ensures |title| <= 90
    ensures |title| <= |TitlePrefix + today| && title == (TitlePrefix + today)[..|title|]
    ensures |TitlePrefix + today| <= 90 ==> title == TitlePrefix + today
    ensures |TitlePrefix + today| > 90 ==> title == (TitlePrefix + today)[..90]
  {
    var t := TitlePrefix + today;
    if |t| > 90 then t[..90] else t
  }

  /** Line 100: the first 80 characters, "-", and the random suffix. */
  function FallbackTitle(title: string, suffix: string): (r: string)
    ensures 1 + |suffix| <= |r| <= 81 + |suffix| && |r| <= 1 + |suffix| + |title|
    ensures r == title[..|r| - 1 - |suffix|] + "-" + suffix
    ensures r == title[..if |title| < 80 then |title| else 80] + "-" + suffix
  {
    Slice(title, 0, 80) + "-" + suffix
  }

  /** For any date of at most 69 characters (a `YYYY-MM-DD` date has 10), the retry title
      keeps the whole primary title: "WB Tariffs ", the date, "-" and the suffix. */
  lemma ShortDateFallbackTitle(today: string, suffix: string)
    requires |today| <= 69
    ensures FallbackTitle(PrimaryTitle(today), suffix) == TitlePrefix + today + "-" + suffix
  {
    assert PrimaryTitle(today) == TitlePrefix + today;
  }

  /** `Math.random().toString(36).slice(2, 7)`: at most five characters. */
  function RandomSuffix(randomText: string): (suffix: string)
    ensures |suffix| <= 5
  {
    Slice(randomText, 2, 7)
  }

  // ---------------------------------------------------------------- uploadData

  /** How each Sheets call goes: authorising, adding the sheet, adding it again under the
      fallback title, writing the values; `randomText` is `Math.random().toString(36)`. */
  datatype SheetsReplies = SheetsReplies(authOk: bool, addSheetOk: bool, randomText: string, retryAddOk: bool, writeOk: bool)

  datatype SheetWrite = SheetWrite(title: string, values: seq<seq<string>>)

  /** `{ appended }`, and what was written (nothing for an empty result). */
  datatype UploadReport = UploadReport(appended: nat, written: Option<SheetWrite>)

  datatype SheetsError = SheetsFailed

  /** `uploadData()` given the query result `data`. */
  method UploadData(data: seq<QueryRow>, today: Day, sheets: SheetsReplies) returns (r: Result<UploadReport, SheetsError>)
    ensures data == [] ==> r == Success(UploadReport(0, None))
    ensures r.Failure? <==> data != [] && (!sheets.authOk || (!sheets.addSheetOk && !sheets.retryAddOk) || !sheets.writeOk)
    ensures r.Success? && data != [] ==>
              && r.value.appended == |data| + 1
              && r.value.written.Some?
              && r.value.written.value.values == [Header] + DataRows(data)
              && r.value.written.value.title ==
                   (if sheets.addSheetOk then PrimaryTitle(today)
                    else FallbackTitle(PrimaryTitle(today), RandomSuffix(sheets.randomText)))
              && |r.value.written.value.title| <= 90
  {
    if |data| == 0 {
      return Success(UploadReport(0, None));
    }
    var header := Header;
    var dataRows := DataRows(data);

    var sheetTitle := TitlePrefix + today;
    if |sheetTitle| > 90 {
      sheetTitle := sheetTitle[..90];
    }
    var rows := [header] + dataRows;

    if !sheets.authOk {
      return Failure(SheetsFailed);
    }
    if !sheets.addSheetOk {
      var suffix := Slice(sheets.randomText, 2, 7);
      sheetTitle := Slice(sheetTitle, 0, 80) + "-" + suffix;
      if !sheets.retryAddOk {
        return Failure(SheetsFailed);
      }
    }
    if !sheets.writeOk {
      return Failure(SheetsFailed);
    }
    r := Success(UploadReport(|rows|, Some(SheetWrite(sheetTitle, rows))));
  }

  /** The fallback title is at most 86 characters and keeps the first 80 of the title. */
  lemma FallbackTitleBound(today: string, randomText: string)
    ensures var f := FallbackTitle(PrimaryTitle(today), RandomSuffix(randomText));
      |f| <= 86 && f[..|f| - 1 - |RandomSuffix(randomText)|] == Slice(PrimaryTitle(today), 0, 80)
  {
  }

  // ---------------------------------------------------------------- findings

  /** As written, a second day's sync leaves every table as the first day left it, reports
      one `warehousesUpdated` per snapshot element (the `wh_location` rewrites) so an upload
      is triggered, and that upload finds nothing dated the second day to export. */
  lemma StaleDayExportsNothing(data: WareHouseList, day1: Day, day2: Day, number: string -> JsNumber)
    requires day1 != day2
    ensures var first := Reconcile.Reconcile(Tables(map[], map[], map[]), data, day1, number, SkipStale);
      var second := Reconcile.Reconcile(first.tables, data, day2, number, SkipStale);
      && second.tables == first.tables
      && second.counts == Counts(0, |data.warehouseList|, 0)
      && forall n :: !Exported(second.tables, day2, n)
  {
    var rt, rw, rl := RowsTariffs(data), RowsWarehouses(data, number), RowsLocation(data);
    RowListsFollowSnapshot(data, number);
    NextDaySkipsAll(rt, day1, day2);
    NextDaySkipsAll(rw, day1, day2);
    UpsertLocationRowsIdempotent(map[], rl);
  }

  /** Corrected: when a name's only row is from an earlier day it is rewritten for today
      (`RefreshStale`). Then every snapshot name is exported on the day it was saved, with
      the values of its last occurrence. */
  lemma RefreshedDayExportsSnapshot(db: Tables, data: WareHouseList, today: Day, number: string -> JsNumber, show: real -> string)
    ensures var db' := Reconcile.Reconcile(db, data, today, number, RefreshStale).tables;
      forall n :: n in WarehouseNames(data) ==>
        && Exported(db', today, n)
        && var last := data.warehouseList[LastIndex(WarehouseNames(data), n)];
           JoinRow(db', n, show).geoName == Some(last.geoName)
           && db'.warehouses[n] == DayRow(today, ConvertTariffs(last, number))
  {
    forall n | n in WarehouseNames(data) {
      ReconcileAt(db, data, today, number, RefreshStale, n);
    }
  }
}

=== FILE: wrappers.dfy ===
/** Option and Result values used in place of JavaScript's null/undefined and thrown errors. */
module Wrappers {

  datatype Option<+T> = None | Some(value: T) {
    /** The value, or `default` when there is none (JavaScript's `??`). */
    function GetOr(default: T): T {
      match this
      case Some(v) => v
      case None => default
    }
  }

  datatype Result<+R, +E> = Success(value: R) | Failure(error: E)
}
